=== FILE: README.md ===
# Letter trainer — a Dafny model of its session logic

The application trains Dutch secondary-school students to write Spanish job
application letters. A student picks one of a few AI-generated job postings,
drafts a letter, and asks for a review (at most three rounds per job). The
review splits the letter into segments and flags errors by category. The
student clicks a flagged segment, proposes a correction and has it validated;
an accepted correction is written back into the review. "Back to writing"
rebuilds the draft from the segments. A side drawer (the *Lenguateca*) lists
standard phrases by category.

This project models the logic layer under the user interface:

- `option.dfy` (`Optional`): the `T | null` and optional-field shape.
- `text.dfy` (`Text`): the JavaScript string operations the code relies on:
  - `trim` and `replace(/\s+/g, ' ')` over the JavaScript white-space set;
  - `join`, `substring(0, n)`, `indexOf`;
  - first-occurrence `replace`, both literal and with JavaScript's `$`
    template expansion;
  - decimal rendering of numbers.
- `types.dfy` (`Types`): job postings, text segments, reviews, correction
  verdicts and phrase entries.
- `constants.dfy` (`Constants`): the review-round cap, the colour and label
  tables of the seven error categories, and the phrase library.
- `prompt.dfy` (`Prompt`): the analysis prompt template, verbatim, and where
  its braces occur.
- `gemini.dfy` (`Gemini`): the adapter around the generative-language
  service. Each call is an oracle, a function from the query to a `Reply`:
  failure, empty text, or a parsed record. The adapter's own work is
  modelled as the code does it:
  - job ids `generated-<time>-<i>`, with `Date.now()` as a clock parameter
    read once per entry;
  - segment ids `seg-<i>`;
  - the fallback payloads;
  - the job-context block and its insertion into the prompt with
    JavaScript's `replace`, `$` expansion included (see "Findings");
  - the 200-character letter prefix sent with a correction.
- `review_board.dfy` (`ReviewBoard`): what the annotated letter shows, which
  segments answer clicks, and which one is highlighted.
- `lenguateca.dfy` (`Lenguateca`): the drawer's category headings (first
  appearance order, no duplicates), the single unfolded category, and the
  phrases shown under it.
- `app.dfy` (`App`): the session record.
  - Every handler of the main screen is a pure transition.
  - `Next` applies a user event only when the screen offers it: which step
    is on display, the button guards, and the Enter key of the correction
    field.
  - An invariant holds in every session reachable from the start.

Two behaviours of the code worth knowing:

- Going back to writing keeps the segment selection: `App.tsx:97-105` never
  clears `selectedSegment`, and `App.ResumeWriting` states that it is kept.
  The next review round clears it before it can be shown again.
- The analyse button is enabled at 20 characters, but the handler refuses a
  draft that is all white space. So the button's guard does not imply the
  handler's guard: twenty spaces enable the button and the click does
  nothing (`App.BlankDraftEnablesIdleButton`).

## Model

| member | source | states |
|---|---|---|
| Text.Trim | App.tsx:57 | `trim()` gives a text with no white space at either end, and it is the input with only white space cut from its two ends |
| Text.TrimEmptyIff | App.tsx:57 | `!studentText.trim()` holds exactly when the draft consists of white space only |
| Text.Collapse | App.tsx:101 | `replace(/\s+/g, ' ')` leaves only single plain spaces as white space, is empty iff its input is, and starts with white space iff its input does |
| Text.CollapseOfRun | App.tsx:101 | a white-space run, however long and whichever characters it holds, becomes one space |
| Text.CollapseConcat | App.tsx:101 | cutting a text where white space meets a visible character cuts its collapse at the same place, so every maximal run becomes one space in its own position |
| Text.Normalize | App.tsx:101 | collapsing then trimming gives a text with single inner spaces and no padding |
| Text.Words | App.tsx:101 | the reference for normalising: the maximal runs of visible characters, in order, each non-empty and free of white space |
| Text.NormalizeIsJoinedWords | App.tsx:101 | collapsing then trimming gives exactly the words of the text, in order, with one space between neighbours and nothing else |
| Text.NormalizeKeepsContent | App.tsx:101 | normalising keeps every non-white-space character, in order |
| Text.NormalizeIdempotent | App.tsx:101 | normalising a normalised text changes nothing |
| Text.JoinNormalizedPieces | App.tsx:100-101 | joining non-empty normalised pieces with single spaces already gives a normalised text |
| Text.NatToString | services/geminiService.ts:86 | a template literal prints a number as decimal digits with no leading zero |
| Text.NatToStringRoundTrip | services/geminiService.ts:86 | reading the printed digits back gives the number |
| Text.Prefix | services/geminiService.ts:154 | `substring(0, n)` is a prefix of length `n`, or the whole text when shorter |
| Text.IndexOfFrom | services/geminiService.ts:106 | the search finds the first occurrence at or after the start, and none exists when it finds nothing |
| Text.ReplaceUniqueOccurrence | services/geminiService.ts:106 | replacing a pattern that occurs once swaps exactly that occurrence and keeps both sides |
| Text.ReplaceFirstJs | services/geminiService.ts:106 | JavaScript's `replace` with a string pattern leaves the text alone when the pattern is absent; otherwise it keeps everything before the first occurrence and after it, and with a replacement free of `$` it is literal replacement |
| Text.ExpandTemplate | services/geminiService.ts:106 | the replacement template of `replace`: a template free of `$` is inserted as it stands |
| Text.Join | App.tsx:100 | `join` of nothing is empty and otherwise starts with the first element |
| Text.JoinSnoc | App.tsx:100 | joining one more element appends a separator and that element |
| Text.NoDollarJoin | services/geminiService.ts:103 | with a `$`-free separator the joined list has a `$` iff one of its elements has |
| Text.FirstToken | App.tsx:226 | `split(' ')[0]` is the longest space-free prefix |
| Constants.LabelEmptyIffNoError | constants.ts:16-24 | only the "no error" category has an empty label |
| Prompt.HeadHasNoBrace | constants.ts:49-67 | the template has no `{` before the placeholder |
| Prompt.TailHasNoPlaceholderStart | constants.ts:69-78 | after the placeholder no `{` of the JSON example is followed by `J`, so none can start another placeholder |
| Prompt.PlaceholderOccursOnce | constants.ts:49-78 | the verbatim template holds `{JOB_CONTEXT}` exactly once, at the end of its head, so replacing the first occurrence replaces all of them |
| Gemini.GenerateJobAds | services/geminiService.ts:83-92 | no text or any failure gives no jobs; otherwise one job per parsed entry, in order, with every field kept but the id, which becomes `generated-<time>-<i>` |
| Gemini.JobIdInjective | services/geminiService.ts:86 | two job ids are equal only when both time and index agree |
| Gemini.GeneratedIdsDistinct | services/geminiService.ts:86 | the ids of one batch are pairwise distinct |
| Gemini.NumberSegments | services/geminiService.ts:123 | segment `i` gets id `seg-<i>` and keeps every other field |
| Gemini.AnalyzeText | services/geminiService.ts:120-133 | a parsed review keeps its segments' number, order and content, and segment `i` gets id `seg-<i>`; anything else yields exactly one clean segment with id `err`, the whole letter and no explanation, and the fixed Dutch apology |
| Gemini.AnalysisIdsDistinct | services/geminiService.ts:123 | the segment ids of every review, real or fallback, are pairwise distinct |
| Gemini.JobContext | services/geminiService.ts:99-104 | the job block has a `$` exactly when the title, company, location, country or one of the requirements has |
| Gemini.JobDetails | services/geminiService.ts:101-104 | the lines after the title have a `$` exactly when the company, location, country or one of the requirements has |
| Gemini.AnalysisInstructionAsWritten | services/geminiService.ts:106 | whatever the job, the instruction starts with the template's text before the placeholder and ends with its text after it |
| Gemini.AnalysisRequest | services/geminiService.ts:106-113 | the letter is sent verbatim under the fixed heading, and with a `$`-free job block the instruction is the template with the block in place of the placeholder |
| Gemini.InstructionSubstitutesContext | services/geminiService.ts:99-106 | the intended instruction is the template with the job block in place of the placeholder and nothing else changed |
| Gemini.AsWrittenAgreesWithoutDollar | services/geminiService.ts:106 | the source's `replace` gives that instruction whenever the job block has no `$` |
| Gemini.ReplaceJsCollapsesDollars | services/geminiService.ts:106 | substituting for a placeholder that occurs once, JavaScript's `replace` turns a `$$` in an otherwise `$`-free replacement into a single `$` |
| Gemini.AsWrittenMangelsDollarTitle | services/geminiService.ts:106 | with title `$$` the source's instruction differs from the intended one |
| Gemini.CorrectionContext | services/geminiService.ts:154 | the context sent with a correction is a prefix of the letter of at most 200 characters, and all of it when shorter |
| Gemini.ValidationSeesOnlyPrefix | services/geminiService.ts:154 | two letters that agree in their first 200 characters get the same verdict from any service |
| Gemini.CorrectionRequest | services/geminiService.ts:145-154 | the validation request carries the flagged text, its category and hint, the proposal unchanged, and a prefix of the letter of at most 200 characters, all of it when shorter |
| Gemini.ValidateCorrection | services/geminiService.ts:173-181 | a parsed verdict passes through unchanged; otherwise the verdict is "not correct" with the fixed message and no corrected text |
| ReviewBoard.ColorForIsTableEntry | components/ReviewBoard.tsx:20 | the fallback to the "no error" colour never applies: every category has its own non-empty entry |
| ReviewBoard.ColorFirstTokenIsBackground | constants.ts:6-14 | the first class of each colour entry, which the legend shows, is a `bg-` class for every category except "no error" |
| ReviewBoard.Render | components/ReviewBoard.tsx:15-35 | one item per segment, in order: clean segments are text plus a space; flagged ones carry the segment, the category's entry of the colour table, its label as tooltip and whether its id is the selected one |
| ReviewBoard.ClickYieldsFlaggedSegment | components/ReviewBoard.tsx:16-26 | a click yields a segment exactly when it lands on a flagged segment, and then yields that very segment |
| ReviewBoard.HighlightedIff | components/ReviewBoard.tsx:21 | a segment is highlighted iff it is flagged and carries the selected id |
| ReviewBoard.AtMostOneHighlighted | components/ReviewBoard.tsx:21 | with distinct ids at most one segment is highlighted |
| ReviewBoard.FallbackHasNothingClickable | components/ReviewBoard.tsx:16-17 | the fallback review offers nothing to click |
| Lenguateca.Dedup | components/Lenguateca.tsx:13 | `Array.from(new Set(..))` has no duplicates and exactly the input's values |
| Lenguateca.DedupKeepsFirstAppearanceOrder | components/Lenguateca.tsx:13 | the headings come in the order of their first appearance |
| Lenguateca.LenguatecaLayout | constants.ts:26-47 | the library has 13 phrases: three openings, two questions, four qualities, four closings, in runs |
| Lenguateca.CategoriesInOrder | components/Lenguateca.tsx:13 | the headings are Aanleiding, Vragen, Kwaliteiten, Afsluiting |
| Lenguateca.ItemsOf | components/Lenguateca.tsx:50 | the filter keeps exactly the phrases of the category |
| Lenguateca.ItemsOfConcat | components/Lenguateca.tsx:50 | filtering splits along concatenation, so it keeps library order |
| Lenguateca.SectionContents | components/Lenguateca.tsx:48-50 | each unfolded section shows exactly its run of the library, in library order |
| Lenguateca.Toggle | components/Lenguateca.tsx:15-17 | toggling the open category closes it; toggling any other opens it in place of the one open |
| Lenguateca.ToggleTwice | components/Lenguateca.tsx:15-17 | toggling twice restores a drawer with nothing or that category open |
| Lenguateca.ToggleTwiceForgetsOther | components/Lenguateca.tsx:15-17 | toggling twice from another open category leaves everything folded |
| Lenguateca.View | components/Lenguateca.tsx:19-59 | a closed drawer shows nothing; an open one shows every heading in order, with phrases only under the unfolded one |
| Lenguateca.AtMostOneUnfolded | components/Lenguateca.tsx:45-48 | at most one section is unfolded |
| Lenguateca.InitialViewShowsOpenings | components/Lenguateca.tsx:11 | on first opening the drawer shows the three opening phrases and folds the rest |
| Lenguateca.ClickHeadings | components/Lenguateca.tsx:38-41 | clicking headings only ever unfolds a listed category |
| Lenguateca.InitialDrawerIsListed | components/Lenguateca.tsx:11 | the drawer starts on a listed category, so any clicks from there leave at most a listed category unfolded |
| App.LoadJobs | App.tsx:41-46 | reloading replaces the job list with exactly the adapter's batch, whose ids are distinct, and changes nothing else |
| App.SelectJob | App.tsx:48-54 | picking a job starts an empty draft with no review and a full quota, and keeps the segment selection and correction panel |
| App.RequestAnalysis | App.tsx:56-70 | no job, a blank draft or an exhausted quota changes nothing; otherwise the review is shown, selection and verdict cleared, the adapter's review stored and the counter raised by exactly one |
| App.SegmentClick | App.tsx:72-76 | a click selects the segment, pre-fills the correction with its text and clears the verdict |
| App.ApplyCorrection | App.tsx:88-92 | the segment with the selected id gets the new text and is no longer flagged; every other segment is unchanged; ids are kept |
| App.CorrectionTouchesOneSegment | App.tsx:88-92 | with distinct ids exactly one segment changes and exactly its position leaves the flagged set |
| App.SubmitCorrection | App.tsx:78-95 | without selection or job nothing changes; otherwise the verdict is stored, and the review is rewritten only for an accepted non-empty correction |
| App.AcceptedCorrectionRewritesSelected | App.tsx:87-93 | in a reachable session an accepted correction rewrites exactly the clicked segment |
| App.RebuiltDraft | App.tsx:100-101 | the rebuilt draft is normalised, keeps every non-white-space character of the joined segments, and is exactly their words separated by single spaces |
| App.ResumeWriting | App.tsx:97-105 | back to writing with no review; the draft is rebuilt when a review exists; the selection is kept |
| App.BackToSelection | App.tsx:191 | going back to the job list changes only the step |
| App.EditText | App.tsx:216 | typing changes only the draft |
| App.EditCorrection | App.tsx:345 | typing a correction changes only the proposal |
| App.SelectedId | App.tsx:249 | the id handed to the board is the selected id, or null when there is no selection or its id is empty |
| App.Next | App.tsx:150-391 | the job list offers only reloading and picking a listed job; the writing screen only typing, the enabled analyse button and going back; the review screen never typing the draft or analysing; the submit button only when shown and enabled; a segment click opens the correction panel exactly on a flagged segment of the review |
| App.NextRunsOfferedHandler | App.tsx:150-391 | each offered event runs its handler: reloading and picking a listed job on the job list, typing and the enabled analyse button on the writing screen, typing, the shown and enabled submit button and Enter in the correction panel, resuming from the review, and going back from either screen |
| App.NextPreservesInv | App.tsx:56-95 | every offered event keeps the invariant: counter in 0..3, a job behind the draft, a review behind the review step, distinct ids, and only flagged segments selected |
| App.ReachableFromInitial | App.tsx:27 | every session reachable from the start satisfies the invariant, so the counter stays within 0..3 |
| App.ReachableHighlightUnique | App.tsx:246-250 | in a reachable session at most one segment is highlighted |
| App.CounterSteps | App.tsx:53 | an event raises the counter by at most one, only a review request raises it, and only picking a job lowers it, to zero |
| App.ShortDraftIsIgnored | App.tsx:265 | a draft under 20 characters cannot be sent for review from the screen |
| App.EnabledButtonStartsReview | App.tsx:263-265 | the enabled button on a non-blank draft starts a review round |
| App.BlankDraftEnablesIdleButton | App.tsx:265 | twenty spaces enable the button, and the click changes nothing |
| App.UnchangedProposalBlocksButton | App.tsx:363 | right after a click the unchanged proposal cannot be submitted with the button |
| App.EnterSubmitsUnchangedProposal | App.tsx:349 | the Enter key submits the unchanged flagged text anyway |
| App.RebuiltDraftIsStable | App.tsx:101 | the rebuilt draft is already normalised |
| App.RebuiltFromCleanPieces | App.tsx:100-101 | non-empty normalised segment texts come back joined by single spaces |
| App.RebuiltFromFallback | App.tsx:100-101 | after a fallback review the draft comes back as the normalised letter |
| App.RebuiltExample | App.tsx:97-105 | the segments "Estimados señores" and "yo buscar trabajo" come back as "Estimados señores yo buscar trabajo" |

## Left out

- The generative-language client, the network, model names, temperatures and
  response schemas: each call is an oracle parameter returning a `Reply`.
- `JSON.parse` and type assertions: a parsed reply is already a record of the
  declared shape. Category strings outside the seven-value taxonomy and
  missing required fields other than `segments` are not represented.
- The job-generation and validation prompts: only the fields the validation
  request carries are modelled, because the logic never reads the wording
  and no `replace` runs over them. The analysis prompt is modelled verbatim.
- Concurrency: every handler is one atomic step. The loading, analysing and
  validating flags are left out, and so are results that arrive after the
  student has moved on.
- `console.error`, JSX layout, icons and the Tailwind classes beyond the
  colour table. The error card's `replace('decoration-', 'border-')`
  (`App.tsx:317`) is display only.
- The word counter (`App.tsx:259`) and the drawer's open flag in the main
  screen (`App.tsx:35`, `App.tsx:135`, `App.tsx:397`): display only.
- `components/JobCard.tsx` and `components/JobDetail.tsx`: display only; a
  card hands its own job to the selection handler.
- `ChatMessage` in `types.ts`: unused.
- String lengths and positions: `.length` and `substring(0, 200)`
  (`services/geminiService.ts:154`, `Gemini.CorrectionContext`, `Text.Prefix`)
  count UTF-16 code units, the model counts characters. The two differ only
  for characters outside the Basic Multilingual Plane.
- The clock: `Date.now()` is a function from the entry index to a number, so
  the model admits any clock readings, not only non-decreasing ones.

## Findings

| source | as written | input that shows it | evidently intended | confidence | as-written member | corrected member |
|---|---|---|---|---|---|---|
| services/geminiService.ts:106 | `ANALYSIS_PROMPT.replace("{JOB_CONTEXT}", jobContext)` passes the AI-generated job block as a replacement pattern, so `$$`, `$&`, `` $` `` and `$'` in it are expanded | a job whose title is `$$` reaches the service as `$` (proved); each `$&` in a title becomes `{JOB_CONTEXT}` | the job block inserted literally, which a replacer function would give | not executed | Gemini.AsWrittenMangelsDollarTitle | Gemini.InstructionSubstitutesContext |

=== FILE: app.dfy ===
/** The trainer's session: picking a job, drafting, review rounds, correcting
    flagged segments and going back to the draft. Each handler is one atomic
    transition of an immutable record; the AI service and the clock come in
    as parameters. */
module App {

  import opened Optional
  import opened Types
  import opened Text
  import opened Constants
  import opened Gemini
  import ReviewBoard

  datatype Step = Selection | Writing | Reviewing

  datatype Session = Session(
    step: Step,
    jobs: seq<JobAd>,
    selectedJob: Option<JobAd>,
    studentText: string,
    analysis: Option<AnalysisResponse>,
    feedbackCount: int,
    selectedSegment: Option<TextSegment>,
    correctionInput: string,
    correctionResult: Option<CorrectionResult>)

  const Initial := Session(Selection, [], None, "", None, 0, None, "", None)

  // ---------------------------------------------------------------------
  // Handlers

  /** `loadJobs`: replaces the listed jobs and nothing else. */
  function LoadJobs(s: Session, reply: Reply<seq<JobAd>>, clock: nat -> nat): (t: Session)
    ensures t.(jobs := s.jobs) == s
    ensures |t.jobs| == (if reply.Parsed? then |reply.value| else 0)
    ensures Distinct(JobIds(t.jobs))
    ensures t.jobs == GenerateJobAds(reply, clock)
  {
    GeneratedIdsDistinct(reply, clock);
    s.(jobs := GenerateJobAds(reply, clock))
  }

  /** `handleSelectJob`: a fresh draft for `job` with a full quota of review
      rounds; the segment selection and the correction panel are left as
      they were. */
  function SelectJob(s: Session, job: JobAd): (t: Session)
    ensures t.step == Writing && t.selectedJob == Some(job)
    ensures t.studentText == "" && t.analysis.None? && t.feedbackCount == 0
    ensures t.jobs == s.jobs
    ensures t.selectedSegment == s.selectedSegment
    ensures t.correctionInput == s.correctionInput && t.correctionResult == s.correctionResult
  {
    s.(selectedJob := Some(job), step := Writing, studentText := "", analysis := None, feedbackCount := 0)
  }

  /** Why a request for analysis is ignored: no job, a blank draft, or no
      review rounds left. */
  predicate AnalysisRefused(s: Session) {
    s.selectedJob.None? || AllWs(s.studentText) || s.feedbackCount >= MaxFeedbackAttempts
  }

  /** `handleRequestAnalysis`. */
  function RequestAnalysis(s: Session, service: AnalysisQuery -> Reply<ParsedAnalysis>): (t: Session)
    ensures AnalysisRefused(s) ==> t == s
    ensures !AnalysisRefused(s) ==>
              && t.step == Reviewing
              && t.selectedSegment.None? && t.correctionResult.None?
              && t.analysis == Some(AnalyzeText(s.studentText, s.selectedJob.value, service))
              && t.feedbackCount == s.feedbackCount + 1
              && t.(step := s.step, selectedSegment := s.selectedSegment, correctionResult := s.correctionResult,
                    analysis := s.analysis, feedbackCount := s.feedbackCount) == s
  {
    TrimEmptyIff(s.studentText);
    if s.selectedJob.None? || |Trim(s.studentText)| == 0 then s
    else if s.feedbackCount >= MaxFeedbackAttempts then s
    else
      s.(step := Reviewing, selectedSegment := None, correctionResult := None,
         analysis := Some(AnalyzeText(s.studentText, s.selectedJob.value, service)),
         feedbackCount := s.feedbackCount + 1)
  }

  /** `handleSegmentClick`: select the segment and pre-fill the correction
      field with its text. */
  function SegmentClick(s: Session, segment: TextSegment): (t: Session)
    ensures t.selectedSegment == Some(segment)
    ensures t.correctionInput == segment.text && t.correctionResult.None?
    ensures t.(selectedSegment := s.selectedSegment, correctionInput := s.correctionInput,
               correctionResult := s.correctionResult) == s
  {
    s.(selectedSegment := Some(segment), correctionInput := segment.text, correctionResult := None)
  }

  /** The segment as it reads once its correction has been accepted. */
  function Corrected(segment: TextSegment, text: string): TextSegment {
    segment.(text := text, isError := false, kind := NoError)
  }

  /** Rewrites every segment carrying `id` with the accepted text. */
  function ApplyCorrection(segs: seq<TextSegment>, id: string, text: string): (r: seq<TextSegment>)
    ensures |r| == |segs|
    ensures SegmentIds(r) == SegmentIds(segs)
    ensures forall i :: 0 <= i < |r| && segs[i].id != id ==> r[i] == segs[i]
    ensures forall i :: 0 <= i < |r| && segs[i].id == id ==>
              r[i].text == text && !r[i].isError && r[i].kind == NoError
              && r[i].explanation == segs[i].explanation
  {
    seq(|segs|, i requires 0 <= i < |segs| => if segs[i].id == id then Corrected(segs[i], text) else segs[i])
  }

  /** The flagged segments, as a set of positions. */
  function ErrorPositions(segs: seq<TextSegment>): set<nat> {
    set i: nat | i < |segs| && segs[i].isError
  }

  /** With distinct ids, a correction touches exactly one segment: the one
      with the selected id, which stops being flagged; no segment becomes
      flagged. */
  lemma CorrectionTouchesOneSegment(segs: seq<TextSegment>, k: nat, text: string)
    requires Distinct(SegmentIds(segs)) && k < |segs|
    ensures var r := ApplyCorrection(segs, segs[k].id, text);
            && (forall i :: 0 <= i < |segs| && i != k ==> r[i] == segs[i])
            && r[k] == Corrected(segs[k], text)
            && ErrorPositions(r) == ErrorPositions(segs) - {k}
  {
    var ids := SegmentIds(segs);
    var r := ApplyCorrection(segs, segs[k].id, text);
    assert forall i :: 0 <= i < |segs| && i != k ==> segs[i].id != segs[k].id by {
      forall i | 0 <= i < |segs| && i != k ensures segs[i].id != segs[k].id {
        assert ids[i] == segs[i].id && ids[k] == segs[k].id;
      }
    }
  }

  /** Whether the verdict carries a usable rewrite: accepted, with a
      non-empty corrected text. */
  predicate AcceptedRewrite(verdict: CorrectionResult) {
    verdict.isCorrect && verdict.correctedText.Some? && |verdict.correctedText.value| > 0
  }

  /** `handleSubmitCorrection`. */
  function SubmitCorrection(s: Session, service: CorrectionQuery -> Reply<CorrectionResult>): (t: Session)
    ensures s.selectedSegment.None? || s.selectedJob.None? ==> t == s
    ensures s.selectedSegment.Some? && s.selectedJob.Some? ==>
              var verdict := ValidateCorrection(s.selectedSegment.value, s.correctionInput, s.studentText, service);
              && t.correctionResult == Some(verdict)
              && (if AcceptedRewrite(verdict) && s.analysis.Some? then
                    && t.analysis.Some?
                    && t.analysis.value.generalFeedback == s.analysis.value.generalFeedback
                    && t.analysis.value.segments
                       == ApplyCorrection(s.analysis.value.segments, s.selectedSegment.value.id, verdict.correctedText.value)
                  else t.analysis == s.analysis)
              && t.(correctionResult := s.correctionResult, analysis := s.analysis) == s
  {
    if s.selectedSegment.None? || s.selectedJob.None? then s
    else
      var segment := s.selectedSegment.value;
      var verdict := ValidateCorrection(segment, s.correctionInput, s.studentText, service);
      var s1 := s.(correctionResult := Some(verdict));
      if AcceptedRewrite(verdict) && s.analysis.Some? then
        var a := s.analysis.value;
        s1.(analysis := Some(a.(segments := ApplyCorrection(a.segments, segment.id, verdict.correctedText.value))))
      else s1
  }

  /** The draft rebuilt from a review: segment texts joined by spaces, runs
      of white space collapsed, ends trimmed. Equivalently, the words of the
      segments, in order, with one space between neighbours. */
  function RebuiltDraft(a: AnalysisResponse): (text: string)
    ensures Normalized(text)
    ensures NonWs(text) == NonWs(Join(" ", SegmentTexts(a.segments)))
    ensures text == Join(" ", Words(Join(" ", SegmentTexts(a.segments))))
  {
    var joined := Join(" ", SegmentTexts(a.segments));
    NormalizeKeepsContent(joined);
    NormalizeIsJoinedWords(joined);
    Normalize(joined)
  }

  /** `handleResumeWriting`: back to the draft, rebuilt from the review when
      there is one; the review is dropped, the segment selection is kept. */
  function ResumeWriting(s: Session): (t: Session)
    ensures t.step == Writing && t.analysis.None?
    ensures s.analysis.Some? ==> t.studentText == RebuiltDraft(s.analysis.value)
    ensures s.analysis.None? ==> t.studentText == s.studentText
    ensures t.selectedSegment == s.selectedSegment
    ensures t.(step := s.step, analysis := s.analysis, studentText := s.studentText) == s
  {
    var text := if s.analysis.Some? then RebuiltDraft(s.analysis.value) else s.studentText;
    s.(studentText := text, step := Writing, analysis := None)
  }

  /** The "other job" buttons: only the step changes. */
  function BackToSelection(s: Session): (t: Session)
    ensures t.step == Selection && t.(step := s.step) == s
  {
    s.(step := Selection)
  }

  /** Typing in the draft editor. */
  function EditText(s: Session, text: string): (t: Session)
    ensures t.studentText == text && t.(studentText := s.studentText) == s
  {
    s.(studentText := text)
  }

  /** Typing in the correction field. */
  function EditCorrection(s: Session, text: string): (t: Session)
    ensures t.correctionInput == text && t.(correctionInput := s.correctionInput) == s
  {
    s.(correctionInput := text)
  }

  // ---------------------------------------------------------------------
  // What the screen offers

  /** `selectedSegment?.id || null`: an empty id counts as no selection. */
  function SelectedId(s: Session): (id: Option<string>)
    ensures id.Some? <==> s.selectedSegment.Some? && |s.selectedSegment.value.id| > 0
    ensures id.Some? ==> id.value == s.selectedSegment.value.id
  {
    if s.selectedSegment.Some? && |s.selectedSegment.value.id| > 0 then Some(s.selectedSegment.value.id) else None
  }

  /** The analyse button is clickable once the draft has 20 characters and a
      review round is left. */
  predicate AnalyseButtonEnabled(s: Session) {
    |s.studentText| >= 20 && s.feedbackCount < MaxFeedbackAttempts
  }

  /** The submit button is shown until a correction has been accepted. */
  predicate SubmitButtonShown(s: Session) {
    !(s.correctionResult.Some? && s.correctionResult.value.isCorrect)
  }

  /** The submit button is clickable once the proposal differs from the
      flagged text. */
  predicate SubmitButtonEnabled(s: Session) {
    s.selectedSegment.Some? && s.correctionInput != s.selectedSegment.value.text
  }

  /** A user action, with whatever the outside world answers to it. */
  datatype Event =
    | Reload(jobsReply: Reply<seq<JobAd>>, clock: nat -> nat)
    | PickJob(index: nat)
    | TypeDraft(text: string)
    | Analyse(analysisService: AnalysisQuery -> Reply<ParsedAnalysis>)
    | ClickSegment(position: nat)
    | TypeCorrection(text: string)
    | PressSubmit(correctionService: CorrectionQuery -> Reply<CorrectionResult>)
    | PressEnter(correctionService: CorrectionQuery -> Reply<CorrectionResult>)
    | Resume
    | Back

  /** Whether the writing/reviewing screen is on display. */
  predicate Editing(s: Session) {
    (s.step == Writing || s.step == Reviewing) && s.selectedJob.Some?
  }

  /** The correction panel is on display with a segment in it. */
  predicate CorrectionPanel(s: Session) {
    Editing(s) && s.step == Reviewing && s.selectedSegment.Some?
  }

  /** The effect of one event; events the screen does not offer in the
      current state change nothing. The job list offers only reloading and
      picking a listed job; the writing screen only typing, the analyse
      button (while it is enabled) and going back; the review board only
      clicking flagged segments, the correction panel, resuming and going
      back. Clicking a segment opens the correction panel on it exactly when
      it is a flagged segment of the analysis. */
  function Next(s: Session, e: Event): (t: Session)
    ensures s.step == Selection && !(e.Reload? || e.PickJob?) ==> t == s
    ensures e.PickJob? && e.index >= |s.jobs| ==> t == s
    ensures s.step == Writing && !(e.TypeDraft? || e.Analyse? || e.Back?) ==> t == s
    ensures e.Analyse? && !AnalyseButtonEnabled(s) ==> t == s
    ensures s.step == Reviewing && (e.Reload? || e.PickJob? || e.TypeDraft? || e.Analyse?) ==> t == s
    ensures s.step != Selection && s.selectedJob.None? ==> t == s
    ensures (e.TypeCorrection? || e.PressSubmit? || e.PressEnter?) && s.selectedSegment.None? ==> t == s
    ensures e.PressSubmit? && !(SubmitButtonShown(s) && SubmitButtonEnabled(s)) ==> t == s
    ensures e.ClickSegment? && Editing(s) && s.step == Reviewing && s.analysis.Some? ==>
              var segs := s.analysis.value.segments;
              if e.position < |segs| && segs[e.position].isError then
                t.selectedSegment == Some(segs[e.position]) && t.correctionInput == segs[e.position].text
              else t == s
  {
    match e
    case Reload(reply, clock) => if s.step == Selection then LoadJobs(s, reply, clock) else s
    case PickJob(k) => if s.step == Selection && k < |s.jobs| then SelectJob(s, s.jobs[k]) else s
    case TypeDraft(text) => if Editing(s) && s.step == Writing then EditText(s, text) else s
    case Analyse(service) =>
      if Editing(s) && s.step == Writing && AnalyseButtonEnabled(s) then RequestAnalysis(s, service) else s
    case ClickSegment(k) =>
      if Editing(s) && s.step == Reviewing && s.analysis.Some? then
        ReviewBoard.ClickYieldsFlaggedSegment(s.analysis.value.segments, SelectedId(s), k);
        match ReviewBoard.Click(ReviewBoard.Render(s.analysis.value.segments, SelectedId(s)), k)
        case Some(segment) => SegmentClick(s, segment)
        case None => s
      else s
    case TypeCorrection(text) => if CorrectionPanel(s) then EditCorrection(s, text) else s
    case PressSubmit(service) =>
      if CorrectionPanel(s) && SubmitButtonShown(s) && SubmitButtonEnabled(s) then SubmitCorrection(s, service) else s
    case PressEnter(service) => if CorrectionPanel(s) then SubmitCorrection(s, service) else s
    case Resume => if Editing(s) && s.step == Reviewing then ResumeWriting(s) else s
    case Back => if Editing(s) then BackToSelection(s) else s
  }

  /** The other direction: an event the screen offers runs its handler. */
  lemma NextRunsOfferedHandler(s: Session, e: Event)
    ensures s.step == Selection && e.Reload? ==> Next(s, e) == LoadJobs(s, e.jobsReply, e.clock)
    ensures s.step == Selection && e.PickJob? && e.index < |s.jobs| ==> Next(s, e) == SelectJob(s, s.jobs[e.index])
    ensures Editing(s) && s.step == Writing && e.TypeDraft? ==> Next(s, e) == EditText(s, e.text)
    ensures Editing(s) && s.step == Writing && e.Analyse? && AnalyseButtonEnabled(s) ==>
              Next(s, e) == RequestAnalysis(s, e.analysisService)
    ensures CorrectionPanel(s) && e.TypeCorrection? ==> Next(s, e) == EditCorrection(s, e.text)
    ensures CorrectionPanel(s) && e.PressSubmit? && SubmitButtonShown(s) && SubmitButtonEnabled(s) ==>
              Next(s, e) == SubmitCorrection(s, e.correctionService)
    ensures CorrectionPanel(s) && e.PressEnter? ==> Next(s, e) == SubmitCorrection(s, e.correctionService)
    ensures Editing(s) && s.step == Reviewing && e.Resume? ==> Next(s, e) == ResumeWriting(s)
    ensures Editing(s) && e.Back? ==> Next(s, e) == BackToSelection(s)
  {
  }

  function Run(s: Session, events: seq<Event>): Session
    decreases |events|
  {
    if |events| == 0 then s else Run(Next(s, events[0]), events[1..])
  }

  // ---------------------------------------------------------------------
  // Invariant of every reachable session

  predicate Inv(s: Session) {
    && 0 <= s.feedbackCount <= MaxFeedbackAttempts
    && (s.step != Selection ==> s.selectedJob.Some?)
    && (s.step == Reviewing ==> s.analysis.Some?)
    && (s.analysis.Some? ==> Distinct(SegmentIds(s.analysis.value.segments)))
    && (s.selectedSegment.Some? ==> s.selectedSegment.value.isError)
    && (s.step == Reviewing && s.selectedSegment.Some? ==>
          s.selectedSegment.value.id in SegmentIds(s.analysis.value.segments))
  }

  lemma InitialInv()
    ensures Inv(Initial)
  {
  }

  lemma NextPreservesInv(s: Session, e: Event)
    requires Inv(s)
    ensures Inv(Next(s, e))
  {
    match e
    case Analyse(service) =>
      if Editing(s) && s.step == Writing && AnalyseButtonEnabled(s) && !AnalysisRefused(s) {
        AnalysisIdsDistinct(s.studentText, s.selectedJob.value, service);
      }
    case ClickSegment(k) =>
      if Editing(s) && s.step == Reviewing && s.analysis.Some? {
        var segs := s.analysis.value.segments;
        ReviewBoard.ClickYieldsFlaggedSegment(segs, SelectedId(s), k);
        var c := ReviewBoard.Click(ReviewBoard.Render(segs, SelectedId(s)), k);
        if c.Some? {
          assert SegmentIds(segs)[k] == segs[k].id;
        }
      }
    case _ =>
  }

  /** Every session reachable from the start satisfies the invariant; in
      particular the review counter never leaves 0..3. */
  lemma {:induction false} ReachableInv(s: Session, events: seq<Event>)
    requires Inv(s)
    ensures Inv(Run(s, events))
    decreases |events|
  {
    if |events| > 0 {
      NextPreservesInv(s, events[0]);
      ReachableInv(Next(s, events[0]), events[1..]);
    }
  }

  lemma ReachableFromInitial(events: seq<Event>)
    ensures Inv(Run(Initial, events))
    ensures 0 <= Run(Initial, events).feedbackCount <= MaxFeedbackAttempts
  {
    InitialInv();
    ReachableInv(Initial, events);
  }

  /** In a reachable review at most one segment is highlighted. */
  lemma ReachableHighlightUnique(events: seq<Event>, i: nat, j: nat)
    requires var s := Run(Initial, events); s.analysis.Some?
    requires var s := Run(Initial, events);
             var items := ReviewBoard.Render(s.analysis.value.segments, SelectedId(s));
             ReviewBoard.Highlighted(items, i) && ReviewBoard.Highlighted(items, j)
    ensures i == j
  {
    ReachableFromInitial(events);
    var s := Run(Initial, events);
    ReviewBoard.AtMostOneHighlighted(s.analysis.value.segments, SelectedId(s), i, j);
  }

  /** The counter moves by at most one per event and goes down only when a
      job is picked, which resets it. */
  lemma CounterSteps(s: Session, e: Event)
    requires 0 <= s.feedbackCount
    ensures Next(s, e).feedbackCount <= s.feedbackCount + 1
    ensures Next(s, e).feedbackCount < s.feedbackCount ==> e.PickJob? && Next(s, e).feedbackCount == 0
    ensures Next(s, e).feedbackCount == s.feedbackCount + 1 ==> e.Analyse? && Next(s, e).step == Reviewing
  {
  }

  // ---------------------------------------------------------------------
  // The two guards of the analyse action

  /** A draft under 20 characters cannot be sent for review from the
      screen, whatever its content. */
  lemma ShortDraftIsIgnored(s: Session, service: AnalysisQuery -> Reply<ParsedAnalysis>)
    requires |s.studentText| < 20
    ensures Next(s, Analyse(service)) == s
  {
  }

  /** With a job chosen and a non-blank draft, the enabled button starts a
      review round. */
  lemma EnabledButtonStartsReview(s: Session, service: AnalysisQuery -> Reply<ParsedAnalysis>)
    requires Editing(s) && s.step == Writing && AnalyseButtonEnabled(s) && !AllWs(s.studentText)
    ensures Next(s, Analyse(service)).step == Reviewing
    ensures Next(s, Analyse(service)).feedbackCount == s.feedbackCount + 1
  {
  }

  /** The button does not imply the handler's guard: twenty spaces enable
      the button, and the handler then ignores the click. */
  lemma BlankDraftEnablesIdleButton(job: JobAd, service: AnalysisQuery -> Reply<ParsedAnalysis>)
    ensures var s := Initial.(step := Writing, selectedJob := Some(job), studentText := seq(20, _ => ' '));
            && AnalyseButtonEnabled(s)
            && Next(s, Analyse(service)) == s
  {
    var s := Initial.(step := Writing, selectedJob := Some(job), studentText := seq(20, _ => ' '));
    assert AllWs(s.studentText);
  }

  // ---------------------------------------------------------------------
  // The two ways of submitting a correction

  /** Right after a click the button is disabled, so pressing it does
      nothing. */
  lemma UnchangedProposalBlocksButton(s: Session, segment: TextSegment,
                                      service: CorrectionQuery -> Reply<CorrectionResult>)
    ensures Next(SegmentClick(s, segment), PressSubmit(service)) == SegmentClick(s, segment)
  {
  }

  /** The Enter key bypasses that guard: right after a click it submits the
      unchanged flagged text for validation. */
  lemma EnterSubmitsUnchangedProposal(s: Session, segment: TextSegment,
                                      service: CorrectionQuery -> Reply<CorrectionResult>)
    requires Editing(s) && s.step == Reviewing
    ensures var t := Next(SegmentClick(s, segment), PressEnter(service));
            t.correctionResult == Some(ValidateCorrection(segment, segment.text, s.studentText, service))
  {
  }

  /** In a reachable session an accepted correction rewrites exactly the
      segment the student clicked, which is no longer flagged, and leaves
      every other segment as it was. */
  lemma AcceptedCorrectionRewritesSelected(s: Session, service: CorrectionQuery -> Reply<CorrectionResult>)
    requires Inv(s) && CorrectionPanel(s)
    requires AcceptedRewrite(ValidateCorrection(s.selectedSegment.value, s.correctionInput, s.studentText, service))
    ensures var t := Next(s, PressEnter(service));
            var segs := s.analysis.value.segments;
            var text := ValidateCorrection(s.selectedSegment.value, s.correctionInput, s.studentText, service).correctedText.value;
            && t.analysis.Some? && |t.analysis.value.segments| == |segs|
            && exists k :: 0 <= k < |segs| && segs[k].id == s.selectedSegment.value.id
                 && t.analysis.value.segments[k] == Corrected(segs[k], text)
                 && ErrorPositions(t.analysis.value.segments) == ErrorPositions(segs) - {k}
                 && (forall i :: 0 <= i < |segs| && i != k ==> t.analysis.value.segments[i] == segs[i])
  {
    var segs := s.analysis.value.segments;
    var text := ValidateCorrection(s.selectedSegment.value, s.correctionInput, s.studentText, service).correctedText.value;
    var ids := SegmentIds(segs);
    var k :| 0 <= k < |ids| && ids[k] == s.selectedSegment.value.id;
    CorrectionTouchesOneSegment(segs, k, text);
  }

  // ---------------------------------------------------------------------
  // Rebuilding the draft

  /** Going back to writing twice in a row from the same review gives the
      same draft: the rebuilt draft is already normal. */
  lemma RebuiltDraftIsStable(a: AnalysisResponse)
    ensures Normalize(RebuiltDraft(a)) == RebuiltDraft(a)
  {
    NormalizedIsFixpoint(RebuiltDraft(a));
  }

  /** When every segment text is non-empty and already normal, the draft is
      exactly the texts joined by single spaces. */
  lemma RebuiltFromCleanPieces(a: AnalysisResponse)
    requires forall i :: 0 <= i < |a.segments| ==> |a.segments[i].text| > 0 && Normalized(a.segments[i].text)
    ensures RebuiltDraft(a) == Join(" ", SegmentTexts(a.segments))
  {
    var texts := SegmentTexts(a.segments);
    JoinNormalizedPieces(texts);
    NormalizedIsFixpoint(Join(" ", texts));
  }

  /** After a degraded review the draft comes back normalised: line breaks
      and indentation of the original letter are lost. */
  lemma RebuiltFromFallback(text: string)
    ensures RebuiltDraft(FallbackAnalysis(text)) == Normalize(text)
  {
    assert SegmentTexts(FallbackAnalysis(text).segments) == [text];
  }

  /** Two clean-shaped pieces come back joined by one space. */
  lemma RebuiltFromTwoPieces(a: AnalysisResponse)
    requires |a.segments| == 2
    requires |a.segments[0].text| > 0 && Normalized(a.segments[0].text)
    requires |a.segments[1].text| > 0 && Normalized(a.segments[1].text)
    ensures RebuiltDraft(a) == a.segments[0].text + " " + a.segments[1].text
  {
    var texts := SegmentTexts(a.segments);
    assert |texts[1..]| == 1 && texts[1..][0] == texts[1];
    assert Join(" ", texts) == texts[0] + " " + texts[1];
    RebuiltFromCleanPieces(a);
  }

  lemma ExampleGreetingNormalized()
    ensures Normalized("Estimados señores")
  {
  }

  lemma ExampleErrorNormalized()
    ensures Normalized("yo buscar trabajo")
  {
  }

  lemma ExampleConcat()
    ensures "Estimados señores" + " " + "yo buscar trabajo" == "Estimados señores yo buscar trabajo"
  {
  }

  /** A clean segment followed by a flagged one comes back as one
      single-spaced line. */
  lemma RebuiltExample()
    ensures RebuiltDraft(AnalysisResponse([
              TextSegment("seg-0", "Estimados señores", false, NoError, None),
              TextSegment("seg-1", "yo buscar trabajo", true, Grammar, None)], ""))
            == "Estimados señores yo buscar trabajo"
  {
    ExampleGreetingNormalized();
    ExampleErrorNormalized();
    ExampleConcat();
    RebuiltFromTwoPieces(AnalysisResponse([
      TextSegment("seg-0", "Estimados señores", false, NoError, None),
      TextSegment("seg-1", "yo buscar trabajo", true, Grammar, None)], ""));
  }
}

=== FILE: constants.dfy ===
/** The fixed tables of the application: the review-round cap, the colour and
    label of every error category, and the phrase library. The analysis
    prompt template is in `Prompt`. */
module Constants {

  import opened Optional
  import opened Types
  import opened Text

  /** How many review rounds a student gets per chosen job. */
  const MaxFeedbackAttempts: int := 3

  /** The style classes of each error category, in order; the first is the
      background colour the legend shows. */
  function ErrorClasses(t: ErrorType): seq<string> {
    match t
    case Spelling => ["bg-red-100", "text-red-900", "decoration-red-500"]
    case Missing => ["bg-blue-100", "text-blue-900", "decoration-blue-500"]
    case Grammar => ["bg-yellow-100", "text-yellow-900", "decoration-yellow-600"]
    case Tense => ["bg-green-100", "text-green-900", "decoration-green-600"]
    case Order => ["bg-amber-100", "text-amber-900", "decoration-amber-600"]
    case Choice => ["bg-teal-100", "text-teal-900", "decoration-teal-600"]
    case NoError => ["text-gray-900"]
  }

  /** The class string of each error category. */
  function ErrorColor(t: ErrorType): string {
    Join(" ", ErrorClasses(t))
  }

  /** The Dutch name of each error category. */
  function ErrorLabel(t: ErrorType): string {
    match t
    case Spelling => "Spelling & Interpunctie"
    case Missing => "Inhoud ontbreekt"
    case Grammar => "Grammatica"
    case Tense => "Werkwoordstijd"
    case Order => "Woordvolgorde"
    case Choice => "Woordkeuze"
    case NoError => ""
  }

  /** Only the "no error" category has an empty label. */
  lemma LabelEmptyIffNoError(t: ErrorType)
    ensures |ErrorLabel(t)| == 0 <==> t == NoError
  {
  }

  /** The phrase library, in source order. */
  const Lenguateca: seq<LenguatecaItem> := [
    LenguatecaItem("Aanleiding", "In El País van 1 april heb ik uw advertentie gelezen waarin u een ... zoekt.", "En el País del 1 de abril leí su anuncio en el cual ustedes buscan..."),
    LenguatecaItem("Aanleiding", "Ik wil solliciteren naar deze baan.", "Me gustaría solicitar este empleo."),
    LenguatecaItem("Aanleiding", "Ik ben vooral geïnteresseerd in ... omdat ...", "Estoy particularmente interesado/-a en ... porque ..."),
    LenguatecaItem("Vragen", "Ik zou graag willen weten of het mogelijk is om ...", "Me gustaría saber si es posible ..."),
    LenguatecaItem("Vragen", "Is het nodig om enige ervaring te hebben?", "¿Es necesario tener alguna experiencia?"),
    LenguatecaItem("Kwaliteiten", "Ik kan goed met mensen opschieten en ik ben stressbestendig.", "Me relaciono bien con la gente y controlo bien las situaciones de estrés."),
    LenguatecaItem("Kwaliteiten", "Ik ben beschikbaar gedurende de zomermaanden.", "Estoy a su disposición durante los meses de verano."),
    LenguatecaItem("Kwaliteiten", "Ik spreek vloeiend Engels en Nederlands.", "Hablo inglés y holandés con fluidez."),
    LenguatecaItem("Kwaliteiten", "Ik kan me redden in het Duits.", "Me defiendo en alemán."),
    LenguatecaItem("Afsluiting", "Ik voeg mijn curriculum vitae bij deze brief.", "A esta carta le adjunto mi currículo."),
    LenguatecaItem("Afsluiting", "Uiteraard ben ik bereid om u nadere informatie te geven.", "Por supuesto estoy dispuesto/-a a darle más información."),
    LenguatecaItem("Afsluiting", "Bij voorbaat dank.", "Gracias de antemano."),
    LenguatecaItem("Afsluiting", "Hoogachtend,", "Le saluda atentamente,")
  ]
}

=== FILE: gemini.dfy ===
/** The adapter around the generative-language service. The service itself,
    the client library and `JSON.parse` are an oracle: each call yields a
    `Reply`, and everything the adapter does around that reply (ids, fallback
    payloads, prompt assembly, the context prefix) is modelled as the code
    does it. The analysis prompt is assembled with JavaScript's `replace`,
    `$` expansion included; the literal insertion it evidently intends is
    defined beside it. */
module Gemini {

  import opened Optional
  import opened Types
  import opened Text
  import opened Constants
  import opened Prompt

  /** The outcome of one service call as the adapter sees it: an exception
      (network failure, unparsable text, a parsed value of the wrong shape),
      an empty response text, or a parsed record. */
  datatype Reply<T> = Failed | EmptyText | Parsed(value: T)

  // ---------------------------------------------------------------------
  // Job generation

  /** The id given to the `index`-th generated job, read at clock time `stamp`. */
  function JobId(stamp: nat, index: nat): string {
    "generated-" + NatToString(stamp) + "-" + NatToString(index)
  }

  function JobIds(jobs: seq<JobAd>): (ids: seq<string>)
    ensures |ids| == |jobs|
    ensures forall i :: 0 <= i < |jobs| ==> ids[i] == jobs[i].id
  {
    seq(|jobs|, i requires 0 <= i < |jobs| => jobs[i].id)
  }

  /** Post-processing of the job-generation call. `clock(i)` is the value
      `Date.now()` returns while the `i`-th entry is renamed. */
  function GenerateJobAds(reply: Reply<seq<JobAd>>, clock: nat -> nat): (jobs: seq<JobAd>)
    ensures !reply.Parsed? ==> |jobs| == 0
    ensures reply.Parsed? ==> |jobs| == |reply.value|
    ensures reply.Parsed? ==> forall i :: 0 <= i < |jobs| ==> jobs[i].(id := reply.value[i].id) == reply.value[i]
    ensures forall i :: 0 <= i < |jobs| ==> jobs[i].id == JobId(clock(i), i)
  {
    match reply
    case Parsed(entries) =>
      seq(|entries|, i requires 0 <= i < |entries| => entries[i].(id := JobId(clock(i), i)))
    case _ => []
  }

  /** Two digit strings followed by a dash split a string the same way. */
  lemma SplitAtDash(a: string, b: string, c: string, d: string)
    requires AllDigits(a) && AllDigits(c)
    requires a + "-" + b == c + "-" + d
    ensures a == c && b == d
  {
    var x := a + "-" + b;
    assert x[|a|] == '-';
    assert forall i :: 0 <= i < |c| ==> x[i] == c[i] && x[i] != '-';
    assert |a| >= |c|;
    assert forall i :: 0 <= i < |a| ==> x[i] == a[i] && x[i] != '-';
    assert (c + "-" + d)[|c|] == '-';
    assert |c| >= |a|;
    assert a == x[..|a|] && c == x[..|c|];
    assert b == x[|a| + 1..] && d == x[|c| + 1..];
  }

  /** A job id determines both its clock reading and its index: the clock
      digits contain no dash. */
  lemma JobIdInjective(s1: nat, i1: nat, s2: nat, i2: nat)
    requires JobId(s1, i1) == JobId(s2, i2)
    ensures s1 == s2 && i1 == i2
  {
    var p := "generated-";
    var a, b := NatToString(s1), NatToString(i1);
    var c, d := NatToString(s2), NatToString(i2);
    assert JobId(s1, i1) == p + (a + "-" + b);
    assert JobId(s2, i2) == p + (c + "-" + d);
    assert a + "-" + b == JobId(s1, i1)[|p|..];
    SplitAtDash(a, b, c, d);
    NatToStringInjective(s1, s2);
    NatToStringInjective(i1, i2);
  }

  /** Ids within one generated batch are pairwise distinct, whatever the
      clock does between entries. */
  lemma GeneratedIdsDistinct(reply: Reply<seq<JobAd>>, clock: nat -> nat)
    ensures Distinct(JobIds(GenerateJobAds(reply, clock)))
  {
    var jobs := GenerateJobAds(reply, clock);
    forall i, j | 0 <= i < j < |jobs| ensures jobs[i].id != jobs[j].id {
      if jobs[i].id == jobs[j].id {
        JobIdInjective(clock(i), i, clock(j), j);
      }
    }
  }

  // ---------------------------------------------------------------------
  // Letter analysis

  /** The fixed lines of the job block. */
  const TitleLabel := "\n      TITULO: "
  const CompanyLabel := "\n      EMPRESA: "
  const LocationLabel := "\n      UBICACIÓN: "
  const RequirementsLabel := "\n      REQUISITOS: "
  const ContextEnd := "\n    "

  lemma LabelsPlain()
    ensures NoDollar(TitleLabel) && NoDollar(CompanyLabel) && NoDollar(LocationLabel)
    ensures NoDollar(", ") && NoDollar(RequirementsLabel) && NoDollar(ContextEnd)
  {
  }

  /** The job block injected into the analysis prompt. Its fixed labels hold
      no `$`, so it has a `$` exactly when one of the job's fields does. */
  function JobContext(job: JobAd): (r: string)
    ensures NoDollar(r) <==>
              && NoDollar(job.title) && NoDollar(job.company)
              && NoDollar(job.location) && NoDollar(job.country)
              && (forall i :: 0 <= i < |job.requirements| ==> NoDollar(job.requirements[i]))
  {
    LabelsPlain();
    NoDollarConcat(TitleLabel, job.title);
    NoDollarConcat(TitleLabel + job.title, JobDetails(job));
    TitleLabel + job.title + JobDetails(job)
  }

  /** The lines of the job block after the title. */
  function JobDetails(job: JobAd): (r: string)
    ensures NoDollar(r) <==>
              && NoDollar(job.company) && NoDollar(job.location) && NoDollar(job.country)
              && (forall i :: 0 <= i < |job.requirements| ==> NoDollar(job.requirements[i]))
  {
    LabelsPlain();
    var reqs := Join(", ", job.requirements);
    NoDollarJoin(", ", job.requirements);
    var p1 := CompanyLabel + job.company;
    NoDollarConcat(CompanyLabel, job.company);
    var p2 := p1 + LocationLabel;
    NoDollarConcat(p1, LocationLabel);
    var p3 := p2 + job.location;
    NoDollarConcat(p2, job.location);
    var p4 := p3 + ", ";
    NoDollarConcat(p3, ", ");
    var p5 := p4 + job.country;
    NoDollarConcat(p4, job.country);
    var p6 := p5 + RequirementsLabel;
    NoDollarConcat(p5, RequirementsLabel);
    var p7 := p6 + reqs;
    NoDollarConcat(p6, reqs);
    NoDollarConcat(p7, ContextEnd);
    p7 + ContextEnd
  }

  /** The system instruction as intended: the prompt template with the job
      block in place of its placeholder, inserted literally. */
  function AnalysisInstruction(job: JobAd): string {
    ReplaceFirst(AnalysisPrompt, JobContextPlaceholder, JobContext(job))
  }

  /** The system instruction as the source computes it, with JavaScript's
      `replace`, which interprets `$` sequences in the job block. Whatever the
      job, the template around the placeholder comes through untouched. */
  function AnalysisInstructionAsWritten(job: JobAd): (r: string)
    ensures |PromptHead| + |PromptTail| <= |r|
    ensures r[..|PromptHead|] == PromptHead
    ensures r[|r| - |PromptTail|..] == PromptTail
  {
    PlaceholderIndex();
    ReplaceFirstJs(AnalysisPrompt, JobContextPlaceholder, JobContext(job))
  }

  /** What the analysis call sends to the service. */
  datatype AnalysisQuery = AnalysisQuery(instruction: string, contents: string)

  /** The heading the letter is sent under. */
  const LetterHeading := "ANALYSEER DEZE BRIEF:\n\n"

  /** What the analysis call sends: the instruction as the source builds it
      and the letter, verbatim, under a fixed heading. Without a `$` in the
      job block the instruction is the template with the block in place of
      its placeholder. */
  function AnalysisRequest(text: string, job: JobAd): (q: AnalysisQuery)
    ensures |LetterHeading| <= |q.contents|
    ensures q.contents[..|LetterHeading|] == LetterHeading && q.contents[|LetterHeading|..] == text
    ensures NoDollar(JobContext(job)) ==> q.instruction == PromptHead + JobContext(job) + PromptTail
  {
    assert NoDollar(JobContext(job)) ==>
             AnalysisInstructionAsWritten(job) == PromptHead + JobContext(job) + PromptTail by {
      if NoDollar(JobContext(job)) {
        AsWrittenAgreesWithoutDollar(job);
        InstructionSubstitutesContext(job);
      }
    }
    AnalysisQuery(AnalysisInstructionAsWritten(job), LetterHeading + text)
  }

  /** A parsed analysis; `segments` is absent when the service left it out. */
  datatype ParsedAnalysis = ParsedAnalysis(segments: Option<seq<TextSegment>>, generalFeedback: string)

  const AnalysisFailureFeedback := "Er ging iets mis bij de analyse. Probeer het later opnieuw."

  /** The degraded review: the whole letter as one clean segment. */
  function FallbackAnalysis(text: string): AnalysisResponse {
    AnalysisResponse([TextSegment("err", text, false, NoError, None)], AnalysisFailureFeedback)
  }

  function SegmentId(i: nat): string {
    "seg-" + NatToString(i)
  }

  /** Gives the `i`-th segment the id `seg-i` and keeps everything else. */
  function NumberSegments(segs: seq<TextSegment>): (r: seq<TextSegment>)
    ensures |r| == |segs|
    ensures forall i :: 0 <= i < |r| ==> r[i].(id := segs[i].id) == segs[i]
    ensures forall i :: 0 <= i < |r| ==> r[i].id == SegmentId(i)
  {
    seq(|segs|, i requires 0 <= i < |segs| => segs[i].(id := SegmentId(i)))
  }

  /** Post-processing of the analysis call. */
  function AnalyzeText(text: string, job: JobAd, service: AnalysisQuery -> Reply<ParsedAnalysis>): (r: AnalysisResponse)
    ensures var reply := service(AnalysisRequest(text, job));
            if reply.Parsed? && reply.value.segments.Some? then
              && |r.segments| == |reply.value.segments.value|
              && (forall i :: 0 <= i < |r.segments| ==>
                    r.segments[i].(id := reply.value.segments.value[i].id) == reply.value.segments.value[i])
              && (forall i :: 0 <= i < |r.segments| ==> r.segments[i].id == SegmentId(i))
              && r.generalFeedback == reply.value.generalFeedback
            else
              && r.segments == [TextSegment("err", text, false, NoError, None)]
              && r.generalFeedback == AnalysisFailureFeedback
  {
    match service(AnalysisRequest(text, job))
    case Parsed(ParsedAnalysis(Some(segs), feedback)) => AnalysisResponse(NumberSegments(segs), feedback)
    case _ => FallbackAnalysis(text)
  }

  lemma SegmentIdInjective(i: nat, j: nat)
    requires SegmentId(i) == SegmentId(j)
    ensures i == j
  {
    assert NatToString(i) == SegmentId(i)[4..];
    NatToStringInjective(i, j);
  }

  /** Segment ids within one review are pairwise distinct, on every path. */
  lemma AnalysisIdsDistinct(text: string, job: JobAd, service: AnalysisQuery -> Reply<ParsedAnalysis>)
    ensures Distinct(SegmentIds(AnalyzeText(text, job, service).segments))
  {
    var segs := AnalyzeText(text, job, service).segments;
    var reply := service(AnalysisRequest(text, job));
    if reply.Parsed? && reply.value.segments.Some? {
      forall i, j | 0 <= i < j < |segs| ensures segs[i].id != segs[j].id {
        if segs[i].id == segs[j].id {
          SegmentIdInjective(i, j);
        }
      }
    }
  }

  /** The job block takes the place of the placeholder and nothing else of
      the template changes. */
  lemma InstructionSubstitutesContext(job: JobAd)
    ensures AnalysisInstruction(job) == PromptHead + JobContext(job) + PromptTail
  {
    HeadHasNoBrace();
    TailHasNoPlaceholderStart();
    ReplaceUniqueOccurrence(PromptHead, JobContextPlaceholder, PromptTail, JobContext(job));
  }

  /** As written, the source agrees with the literal substitution whenever the
      job block has no `$`. */
  lemma AsWrittenAgreesWithoutDollar(job: JobAd)
    requires NoDollar(JobContext(job))
    ensures AnalysisInstructionAsWritten(job) == AnalysisInstruction(job)
  {
  }

  lemma {:induction false} ExpandAfterPlain(a: string, t: string, m: string, before: string, after: string)
    requires NoDollar(a)
    ensures ExpandTemplate(a + t, m, before, after) == a + ExpandTemplate(t, m, before, after)
    decreases |a|
  {
    if |a| > 0 {
      assert (a + t)[1..] == a[1..] + t;
      ExpandAfterPlain(a[1..], t, m, before, after);
    } else {
      assert a + t == t;
    }
  }

  /** Between `$`-free text, the template `$$` expands to a single `$`. */
  lemma ExpandEscapedDollar(a: string, b: string, m: string, before: string, after: string)
    requires NoDollar(a) && NoDollar(b)
    ensures ExpandTemplate(a + "$$" + b, m, before, after) == a + "$" + b
  {
    assert a + "$$" + b == a + ("$$" + b);
    ExpandAfterPlain(a, "$$" + b, m, before, after);
    assert ExpandTemplate("$$" + b, m, before, after) == "$" + ExpandTemplate(b, m, before, after);
  }

  /** Substituting a template whose placeholder is unique: a `$$` in the
      replacement comes out as a single `$`. */
  lemma ReplaceJsCollapsesDollars(head: string, pat: string, tail: string, a: string, b: string)
    requires |pat| >= 2
    requires pat[0] !in head && pat[0] !in pat[1..]
    requires NoPair(tail, pat[0], pat[1])
    requires NoDollar(a) && NoDollar(b)
    ensures ReplaceFirstJs(head + pat + tail, pat, a + "$$" + b) == head + a + "$" + b + tail
  {
    var p := head + pat + tail;
    var k := |head|;
    UniqueOccurrence(head, pat, tail);
    assert OccursAt(p, pat, k);
    assert IndexOf(p, pat) == Some(k);
    var before, after := p[..k], p[k + |pat|..];
    assert before == head && after == tail;
    ExpandEscapedDollar(a, b, pat, before, after);
    var mid := a + "$" + b;
    assert ReplaceFirstJs(p, pat, a + "$$" + b) == head + mid + tail;
    Reassociate(head, a + "$", b);
    Reassociate(head, a, "$");
  }

  /** A job title of `$$`, which JavaScript's `replace` reads as an escaped
      dollar, reaches the service as a single `$`: the instruction as written
      differs from the literal substitution. */
  lemma AsWrittenMangelsDollarTitle()
    ensures var job := JobAd("", "$$", "", "", "", "", [], [], "", "", "");
            AnalysisInstructionAsWritten(job) != PromptHead + JobContext(job) + PromptTail
  {
    var job := JobAd("", "$$", "", "", "", "", [], [], "", "", "");
    LabelsPlain();
    HeadHasNoBrace();
    TailHasNoPlaceholderStart();
    ReplaceJsCollapsesDollars(PromptHead, JobContextPlaceholder, PromptTail, TitleLabel, JobDetails(job));
    assert |AnalysisInstructionAsWritten(job)| < |PromptHead + JobContext(job) + PromptTail|;
  }

  // ---------------------------------------------------------------------
  // Correction validation

  /** How much of the letter accompanies a correction as context. */
  const ContextLimit: nat := 200

  /** What the validation call tells the service. */
  datatype CorrectionQuery = CorrectionQuery(
    original: string,
    kind: ErrorType,
    hint: Option<string>,
    proposal: string,
    context: string)

  /** `fullTextContext.substring(0, 200)`. */
  function CorrectionContext(full: string): (c: string)
    ensures |c| <= ContextLimit && |c| <= |full| && c == full[..|c|]
    ensures |c| == ContextLimit || c == full
  {
    Prefix(full, ContextLimit)
  }

  /** What the validation call tells the service: the flagged text, its
      category and hint, the proposal, and at most the first 200 characters
      of the letter. */
  function CorrectionRequest(segment: TextSegment, proposal: string, full: string): (q: CorrectionQuery)
    ensures q.original == segment.text && q.kind == segment.kind && q.hint == segment.explanation
    ensures q.proposal == proposal
    ensures |q.context| <= ContextLimit && |q.context| <= |full| && q.context == full[..|q.context|]
    ensures |q.context| == ContextLimit || q.context == full
  {
    CorrectionQuery(segment.text, segment.kind, segment.explanation, proposal, CorrectionContext(full))
  }

  const CorrectionFailureFeedback := "Kan correctie niet valideren door verbindingsfout."

  /** Post-processing of the validation call: a parsed verdict is passed on
      untouched, anything else becomes a rejection with a fixed message. */
  function ValidateCorrection(segment: TextSegment, proposal: string, full: string,
                              service: CorrectionQuery -> Reply<CorrectionResult>): (r: CorrectionResult)
    ensures var reply := service(CorrectionRequest(segment, proposal, full));
            if reply.Parsed? then r == reply.value
            else !r.isCorrect && r.correctedText.None? && r.feedback == CorrectionFailureFeedback
  {
    match service(CorrectionRequest(segment, proposal, full))
    case Parsed(verdict) => verdict
    case _ => CorrectionResult(false, CorrectionFailureFeedback, None)
  }

  /** Validation sees the letter only through its first 200 characters: two
      letters that agree there get the same verdict from any service. */
  lemma ValidationSeesOnlyPrefix(segment: TextSegment, proposal: string, a: string, b: string,
                                 service: CorrectionQuery -> Reply<CorrectionResult>)
    requires |a| >= ContextLimit && |b| >= ContextLimit && a[..ContextLimit] == b[..ContextLimit]
    ensures ValidateCorrection(segment, proposal, a, service) == ValidateCorrection(segment, proposal, b, service)
  {
    assert CorrectionContext(a) == CorrectionContext(b);
  }
}

=== FILE: lenguateca.dfy ===
/** The phrase-library drawer: its category list, the one category that is
    unfolded, and which phrases it shows. */
module Lenguateca {

  import opened Optional
  import opened Types
  import opened Constants

  /** The position of the first occurrence of `x` in `xs`. */
  function FirstIndex<T(==)>(xs: seq<T>, x: T): (k: nat)
    requires x in xs
    ensures k < |xs| && xs[k] == x
    ensures forall j :: 0 <= j < k ==> xs[j] != x
  {
    if xs[0] == x then 0 else 1 + FirstIndex(xs[1..], x)
  }

  lemma FirstIndexInPrefix<T>(xs: seq<T>, n: nat, x: T)
    requires n <= |xs| && x in xs[..n]
    ensures FirstIndex(xs, x) == FirstIndex(xs[..n], x)
  {
    var k := FirstIndex(xs[..n], x);
    assert xs[k] == x;
    assert forall j :: 0 <= j < k ==> xs[j] == xs[..n][j];
  }

  /** `Array.from(new Set(xs))`: each value once, in order of first
      appearance. */
  function Dedup<T(==,!new)>(xs: seq<T>): (r: seq<T>)
    ensures Distinct(r)
    ensures forall x :: x in r <==> x in xs
  {
    if |xs| == 0 then []
    else
      var init := xs[..|xs| - 1];
      var last := xs[|xs| - 1];
      var r := Dedup(init);
      assert forall x :: x in init ==> x in xs;
      if last in r then r else r + [last]
  }

  /** The deduplicated list keeps the order in which values first appear. */
  lemma {:induction false} DedupKeepsFirstAppearanceOrder<T(!new)>(xs: seq<T>)
    ensures forall i, j :: 0 <= i < j < |Dedup(xs)| ==>
              FirstIndex(xs, Dedup(xs)[i]) < FirstIndex(xs, Dedup(xs)[j])
  {
    if |xs| > 0 {
      var init := xs[..|xs| - 1];
      var last := xs[|xs| - 1];
      var r := Dedup(init);
      DedupKeepsFirstAppearanceOrder(init);
      assert xs == init + [last];
      forall x | x in r ensures FirstIndex(xs, x) == FirstIndex(init, x) < |init| {
        FirstIndexInPrefix(xs, |init|, x);
      }
      if last !in r {
        assert FirstIndex(xs, last) == |init|;
      }
    }
  }

  /** The category of each phrase, in library order. */
  function CategoryColumn(items: seq<LenguatecaItem>): (cs: seq<string>)
    ensures |cs| == |items|
    ensures forall i :: 0 <= i < |items| ==> cs[i] == items[i].category
  {
    seq(|items|, i requires 0 <= i < |items| => items[i].category)
  }

  /** The drawer's section headings. */
  function Categories(): seq<string> {
    Dedup(CategoryColumn(Lenguateca))
  }

  /** `LENGUATECA.filter(i => i.category === c)`. */
  function ItemsOf(items: seq<LenguatecaItem>, c: string): (r: seq<LenguatecaItem>)
    ensures forall x :: x in r <==> x in items && x.category == c
  {
    if |items| == 0 then []
    else if items[0].category == c then [items[0]] + ItemsOf(items[1..], c)
    else ItemsOf(items[1..], c)
  }

  /** Filtering splits along concatenation, so it keeps library order. */
  lemma {:induction false} ItemsOfConcat(a: seq<LenguatecaItem>, b: seq<LenguatecaItem>, c: string)
    ensures ItemsOf(a + b, c) == ItemsOf(a, c) + ItemsOf(b, c)
  {
    if |a| == 0 {
      assert a + b == b;
    } else {
      assert (a + b)[1..] == a[1..] + b;
      ItemsOfConcat(a[1..], b, c);
    }
  }

  lemma {:induction false} ItemsOfUniform(items: seq<LenguatecaItem>, c: string)
    requires forall i :: 0 <= i < |items| ==> items[i].category == c
    ensures ItemsOf(items, c) == items
  {
    if |items| > 0 {
      ItemsOfUniform(items[1..], c);
      assert items == [items[0]] + items[1..];
    }
  }

  lemma ItemsOfDisjoint(items: seq<LenguatecaItem>, c: string)
    requires forall i :: 0 <= i < |items| ==> items[i].category != c
    ensures ItemsOf(items, c) == []
  {
    if |items| > 0 {
      assert items[0] !in ItemsOf(items, c);
    }
  }

  const Opening := "Aanleiding"
  const Questions := "Vragen"
  const Qualities := "Kwaliteiten"
  const Closing := "Afsluiting"

  /** The library has 13 phrases in four consecutive runs. */
  lemma LenguatecaLayout()
    ensures |Lenguateca| == 13
    ensures forall i :: 0 <= i < 3 ==> Lenguateca[i].category == Opening
    ensures forall i :: 3 <= i < 5 ==> Lenguateca[i].category == Questions
    ensures forall i :: 5 <= i < 9 ==> Lenguateca[i].category == Qualities
    ensures forall i :: 9 <= i < 13 ==> Lenguateca[i].category == Closing
  {
  }

  /** Four consecutive runs of categories: three openings, two questions,
      four qualities and four closings. */
  predicate FourRuns(cs: seq<string>) {
    && |cs| == 13
    && (forall i :: 0 <= i < 3 ==> cs[i] == Opening)
    && (forall i :: 3 <= i < 5 ==> cs[i] == Questions)
    && (forall i :: 5 <= i < 9 ==> cs[i] == Qualities)
    && (forall i :: 9 <= i < 13 ==> cs[i] == Closing)
  }

  /** Appending a value extends the deduplicated list exactly when the
      value is new. */
  lemma DedupSnoc(xs: seq<string>, x: string)
    ensures Dedup(xs + [x]) == if x in xs then Dedup(xs) else Dedup(xs) + [x]
  {
    assert (xs + [x])[..|xs|] == xs;
  }

  lemma DedupStep(cs: seq<string>, k: nat, prev: seq<string>)
    requires k < |cs| && Dedup(cs[..k]) == prev
    ensures Dedup(cs[..k + 1]) == if cs[k] in prev then prev else prev + [cs[k]]
  {
    assert cs[..k + 1] == cs[..k] + [cs[k]];
    DedupSnoc(cs[..k], cs[k]);
  }

  lemma CategoryNamesDistinct()
    ensures Opening != Questions && Opening != Qualities && Opening != Closing
    ensures Questions != Qualities && Questions != Closing && Qualities != Closing
  {
    assert Opening[1] != Closing[1];
  }

  /** A value already listed leaves the deduplicated prefix as it was. */
  lemma DedupRepeat(cs: seq<string>, k: nat, prev: seq<string>)
    requires k < |cs| && Dedup(cs[..k]) == prev && cs[k] in prev
    ensures Dedup(cs[..k + 1]) == prev
  {
    DedupStep(cs, k, prev);
  }

  /** A value not yet listed is appended to the deduplicated prefix. */
  lemma DedupFresh(cs: seq<string>, k: nat, prev: seq<string>)
    requires k < |cs| && Dedup(cs[..k]) == prev && cs[k] !in prev
    ensures Dedup(cs[..k + 1]) == prev + [cs[k]]
  {
    DedupStep(cs, k, prev);
  }

  lemma DedupOfOpenings(cs: seq<string>)
    requires FourRuns(cs)
    ensures Dedup(cs[..3]) == [Opening]
  {
    assert cs[..0] == [];
    DedupFresh(cs, 0, []);
    DedupRepeat(cs, 1, [Opening]);
    DedupRepeat(cs, 2, [Opening]);
  }

  lemma DedupThroughQuestions(cs: seq<string>)
    requires FourRuns(cs)
    ensures Dedup(cs[..5]) == [Opening, Questions]
  {
    CategoryNamesDistinct();
    DedupOfOpenings(cs);
    DedupFresh(cs, 3, [Opening]);
    DedupRepeat(cs, 4, [Opening, Questions]);
  }

  lemma DedupThroughQualities(cs: seq<string>)
    requires FourRuns(cs)
    ensures Dedup(cs[..9]) == [Opening, Questions, Qualities]
  {
    var p := [Opening, Questions, Qualities];
    CategoryNamesDistinct();
    DedupThroughQuestions(cs);
    DedupFresh(cs, 5, [Opening, Questions]);
    assert cs[6] == cs[7] == cs[8] == Qualities && Qualities in p;
    DedupRepeat(cs, 6, p);
    DedupRepeat(cs, 7, p);
    DedupRepeat(cs, 8, p);
  }

  lemma DedupThroughFirstClosing(cs: seq<string>)
    requires FourRuns(cs)
    ensures Dedup(cs[..10]) == [Opening, Questions, Qualities, Closing]
  {
    CategoryNamesDistinct();
    DedupThroughQualities(cs);
    DedupFresh(cs, 9, [Opening, Questions, Qualities]);
  }

  lemma DedupOfFourRuns(cs: seq<string>)
    requires FourRuns(cs)
    ensures Dedup(cs) == [Opening, Questions, Qualities, Closing]
  {
    var p := [Opening, Questions, Qualities, Closing];
    DedupThroughFirstClosing(cs);
    assert cs[10] == cs[11] == cs[12] == Closing && Closing in p;
    DedupRepeat(cs, 10, p);
    DedupRepeat(cs, 11, p);
    DedupRepeat(cs, 12, p);
    assert cs[..13] == cs;
  }

  /** The headings are the four categories in order of first appearance. */
  lemma CategoriesInOrder()
    ensures Categories() == [Opening, Questions, Qualities, Closing]
  {
    LenguatecaLayout();
    DedupOfFourRuns(CategoryColumn(Lenguateca));
  }

  lemma ItemsOfFour(a: seq<LenguatecaItem>, b: seq<LenguatecaItem>, c: seq<LenguatecaItem>,
                    d: seq<LenguatecaItem>, x: string)
    ensures ItemsOf(a + b + c + d, x) == ItemsOf(a, x) + ItemsOf(b, x) + ItemsOf(c, x) + ItemsOf(d, x)
  {
    ItemsOfConcat(a + b + c, d, x);
    ItemsOfConcat(a + b, c, x);
    ItemsOfConcat(a, b, x);
  }

  /** The library split into its four runs. */
  lemma SplitRuns(l: seq<LenguatecaItem>)
    requires FourRuns(CategoryColumn(l))
    ensures l == l[..3] + l[3..5] + l[5..9] + l[9..13]
    ensures forall i :: 0 <= i < 3 ==> l[..3][i].category == Opening
    ensures forall i :: 0 <= i < 2 ==> l[3..5][i].category == Questions
    ensures forall i :: 0 <= i < 4 ==> l[5..9][i].category == Qualities
    ensures forall i :: 0 <= i < 4 ==> l[9..13][i].category == Closing
  {
    var cs := CategoryColumn(l);
    assert forall i :: 0 <= i < 3 ==> l[..3][i].category == cs[i];
    assert forall i :: 0 <= i < 2 ==> l[3..5][i].category == cs[3 + i];
    assert forall i :: 0 <= i < 4 ==> l[5..9][i].category == cs[5 + i];
    assert forall i :: 0 <= i < 4 ==> l[9..13][i].category == cs[9 + i];
  }

  /** Filtering a library laid out in four runs yields exactly each run. */
  lemma ItemsOfFourRuns(l: seq<LenguatecaItem>)
    requires FourRuns(CategoryColumn(l))
    ensures ItemsOf(l, Opening) == l[..3]
    ensures ItemsOf(l, Questions) == l[3..5]
    ensures ItemsOf(l, Qualities) == l[5..9]
    ensures ItemsOf(l, Closing) == l[9..13]
  {
    SplitRuns(l);
    var a, b, c, d := l[..3], l[3..5], l[5..9], l[9..13];
    OpeningRun(a, b, c, d);
    QuestionRun(a, b, c, d);
    QualityRun(a, b, c, d);
    ClosingRun(a, b, c, d);
  }

  lemma OpeningRun(a: seq<LenguatecaItem>, b: seq<LenguatecaItem>, c: seq<LenguatecaItem>, d: seq<LenguatecaItem>)
    requires forall i :: 0 <= i < |a| ==> a[i].category == Opening
    requires forall i :: 0 <= i < |b| ==> b[i].category == Questions
    requires forall i :: 0 <= i < |c| ==> c[i].category == Qualities
    requires forall i :: 0 <= i < |d| ==> d[i].category == Closing
    ensures ItemsOf(a + b + c + d, Opening) == a
  {
    ItemsOfFour(a, b, c, d, Opening);
    ItemsOfUniform(a, Opening);
    ItemsOfDisjoint(b, Opening);
    ItemsOfDisjoint(c, Opening);
    ItemsOfDisjoint(d, Opening);
  }

  lemma QuestionRun(a: seq<LenguatecaItem>, b: seq<LenguatecaItem>, c: seq<LenguatecaItem>, d: seq<LenguatecaItem>)
    requires forall i :: 0 <= i < |a| ==> a[i].category == Opening
    requires forall i :: 0 <= i < |b| ==> b[i].category == Questions
    requires forall i :: 0 <= i < |c| ==> c[i].category == Qualities
    requires forall i :: 0 <= i < |d| ==> d[i].category == Closing
    ensures ItemsOf(a + b + c + d, Questions) == b
  {
    ItemsOfFour(a, b, c, d, Questions);
    ItemsOfDisjoint(a, Questions);
    ItemsOfUniform(b, Questions);
    ItemsOfDisjoint(c, Questions);
    ItemsOfDisjoint(d, Questions);
  }

  lemma QualityRun(a: seq<LenguatecaItem>, b: seq<LenguatecaItem>, c: seq<LenguatecaItem>, d: seq<LenguatecaItem>)
    requires forall i :: 0 <= i < |a| ==> a[i].category == Opening
    requires forall i :: 0 <= i < |b| ==> b[i].category == Questions
    requires forall i :: 0 <= i < |c| ==> c[i].category == Qualities
    requires forall i :: 0 <= i < |d| ==> d[i].category == Closing
    ensures ItemsOf(a + b + c + d, Qualities) == c
  {
    ItemsOfFour(a, b, c, d, Qualities);
    ItemsOfDisjoint(a, Qualities);
    ItemsOfDisjoint(b, Qualities);
    ItemsOfUniform(c, Qualities);
    ItemsOfDisjoint(d, Qualities);
  }

  lemma ClosingRun(a: seq<LenguatecaItem>, b: seq<LenguatecaItem>, c: seq<LenguatecaItem>, d: seq<LenguatecaItem>)
    requires forall i :: 0 <= i < |a| ==> a[i].category == Opening
    requires forall i :: 0 <= i < |b| ==> b[i].category == Questions
    requires forall i :: 0 <= i < |c| ==> c[i].category == Qualities
    requires forall i :: 0 <= i < |d| ==> d[i].category == Closing
    ensures ItemsOf(a + b + c + d, Closing) == d
  {
    ItemsOfFour(a, b, c, d, Closing);
    ItemsOfDisjoint(a, Closing);
    ItemsOfDisjoint(b, Closing);
    ItemsOfDisjoint(c, Closing);
    ItemsOfUniform(d, Closing);
  }

  /** Each section lists exactly its run of the library: three openings, two
      questions, four qualities and four closings, in library order. */
  lemma SectionContents()
    ensures ItemsOf(Lenguateca, Opening) == Lenguateca[..3]
    ensures ItemsOf(Lenguateca, Questions) == Lenguateca[3..5]
    ensures ItemsOf(Lenguateca, Qualities) == Lenguateca[5..9]
    ensures ItemsOf(Lenguateca, Closing) == Lenguateca[9..13]
  {
    LenguatecaLayout();
    ItemsOfFourRuns(Lenguateca);
  }

  // ---------------------------------------------------------------------
  // Drawer state

  /** The drawer's only state: which category, if any, is unfolded. */
  datatype Drawer = Drawer(openCategory: Option<string>)

  const InitialDrawer := Drawer(Some(Opening))

  /** `toggleCategory`: close the category if it is open, otherwise open it
      in place of whichever was open. */
  function Toggle(d: Drawer, c: string): (e: Drawer)
    ensures d.openCategory == Some(c) ==> e.openCategory.None?
    ensures d.openCategory != Some(c) ==> e.openCategory == Some(c)
  {
    if d.openCategory == Some(c) then Drawer(None) else Drawer(Some(c))
  }

  /** Toggling twice restores a drawer that had nothing or `c` open. */
  lemma ToggleTwice(d: Drawer, c: string)
    requires d.openCategory.None? || d.openCategory == Some(c)
    ensures Toggle(Toggle(d, c), c) == d
  {
  }

  /** A drawer with another category open does not come back: the second
      toggle closes `c` and leaves everything folded. */
  lemma ToggleTwiceForgetsOther(d: Drawer, c: string)
    requires d.openCategory.Some? && d.openCategory != Some(c)
    ensures Toggle(Toggle(d, c), c) == Drawer(None) != d
  {
  }

  /** One heading of the rendered drawer and the phrases shown under it. */
  datatype Section = Section(category: string, unfolded: bool, items: seq<LenguatecaItem>)

  /** The rendered drawer: nothing when it is closed, otherwise one section
      per heading, with phrases only under the unfolded one. */
  function View(isOpen: bool, d: Drawer): (v: Option<seq<Section>>)
    ensures !isOpen <==> v.None?
    ensures v.Some? ==> |v.value| == |Categories()|
    ensures v.Some? ==> forall i :: 0 <= i < |v.value| ==>
              && v.value[i].category == Categories()[i]
              && (v.value[i].unfolded <==> d.openCategory == Some(Categories()[i]))
              && v.value[i].items == (if v.value[i].unfolded then ItemsOf(Lenguateca, Categories()[i]) else [])
  {
    if !isOpen then None
    else
      var cs := Categories();
      Some(seq(|cs|, i requires 0 <= i < |cs| =>
        Section(cs[i], d.openCategory == Some(cs[i]),
                if d.openCategory == Some(cs[i]) then ItemsOf(Lenguateca, cs[i]) else [])))
  }

  /** At most one section is unfolded at any time. */
  lemma AtMostOneUnfolded(d: Drawer, i: nat, j: nat)
    requires View(true, d).Some?
    requires i < |View(true, d).value| && j < |View(true, d).value|
    requires View(true, d).value[i].unfolded && View(true, d).value[j].unfolded
    ensures i == j
  {
    var cs := Categories();
    assert cs[i] == cs[j];
  }

  /** Unfolding one heading shows exactly that heading's phrases. */
  lemma ViewOfOpenHeading(d: Drawer, k: nat)
    requires k < |Categories()| && d.openCategory == Some(Categories()[k])
    ensures View(true, d).Some? && |View(true, d).value| == |Categories()|
    ensures View(true, d).value[k] == Section(Categories()[k], true, ItemsOf(Lenguateca, Categories()[k]))
    ensures forall i :: 0 <= i < |Categories()| && i != k ==>
              !View(true, d).value[i].unfolded && View(true, d).value[i].items == []
  {
    var cs := Categories();
    forall i | 0 <= i < |cs| && i != k ensures d.openCategory != Some(cs[i]) {
      assert cs[i] != cs[k];
    }
  }

  /** When the drawer first opens, the opening phrases are shown under the
      first heading and every other heading is folded. */
  lemma InitialViewShowsOpenings()
    ensures View(true, InitialDrawer).Some?
    ensures |View(true, InitialDrawer).value| == 4
    ensures View(true, InitialDrawer).value[0] == Section(Opening, true, Lenguateca[..3])
    ensures forall i :: 1 <= i < 4 ==>
              (!View(true, InitialDrawer).value[i].unfolded && View(true, InitialDrawer).value[i].items == [])
  {
    CategoriesInOrder();
    ViewOfOpenHeading(InitialDrawer, 0);
    SectionContents();
  }

  /** Clicking headings only ever unfolds a listed category. */
  function ClickHeadings(d: Drawer, clicks: seq<nat>): (e: Drawer)
    requires d.openCategory.None? || d.openCategory.value in Categories()
    ensures e.openCategory.None? || e.openCategory.value in Categories()
    decreases |clicks|
  {
    if |clicks| == 0 then d
    else
      var k := clicks[0];
      var next := if k < |Categories()| then Toggle(d, Categories()[k]) else d;
      ClickHeadings(next, clicks[1..])
  }

  /** The drawer opens on a listed category, so any clicks from there leave
      at most a listed category unfolded. */
  lemma InitialDrawerIsListed()
    ensures InitialDrawer.openCategory.value in Categories()
    ensures forall clicks :: var e := ClickHeadings(InitialDrawer, clicks);
              e.openCategory.None? || e.openCategory.value in Categories()
  {
    CategoriesInOrder();
  }
}

=== FILE: option.dfy ===
/** The optional values of the application: TypeScript's `T | null` and
    optional fields `x?: T`. */
module Optional {

  datatype Option<T> = None | Some(value: T)
}

=== FILE: prompt.dfy ===
/** The analysis prompt template, verbatim: one constant per line of the
    template, each line cut into pieces of at most twenty characters so that
    the verifier can inspect it. The job-context placeholder sits on a line of
    its own between the heading "Vacature Context:" and the answer format.
    The template is put together from its lines by the recursive `Unlines`,
    so the rest of the model sees its text only through the facts proved
    here about where braces occur. */
module Prompt {

  import opened Optional
  import opened Text

  /** The placeholder the template carries for the job context. */
  const JobContextPlaceholder := "{JOB_CONTEXT}"

  // The role and the assignment.

  const Role :=
      "Je bent een strenge " + "maar rechtvaardige d" + "ocent Spaans. Je con"
    + "troleert een sollici" + "tatiebrief van een 6" + "-VWO leerling.\n"

  const Task :=
      "Je moet de tekst ana" + "lyseren en opdelen i" + "n segmenten. Als een"
    + " stuk tekst een fout" + " bevat, markeer je d" + "at segment.\n"

  // The error categories.

  const CategoriesLead :=
      "Categoriseer fouten " + "strikt in deze categ" + "orieën:\n"

  const SpellingRule :=
      "- 'spelling': Spelli" + "ng of leestekens (Ro" + "od).\n"

  const MissingRule :=
      "- 'missing': Er ontb" + "reekt essentiële inf" + "ormatie gevraagd in "
    + "de vacature (Blauw)." + "\n"

  const GrammarRule :=
      "- 'grammar': Grammat" + "icale fouten (bijv. " + "concordantie) (Geel)" + ".\n"

  const TenseRule :=
      "- 'tense': Verkeerde" + " werkwoordstijd (Gro" + "en).\n"

  const OrderRule :=
      "- 'order': Verkeerde" + " woordvolgorde (Brui" + "n).\n"

  const ChoiceRule :=
      "- 'choice': Verkeerd" + "e woordkeuze (Teal/G" + "roen).\n"

  // The working steps.

  const StepsLead :=
      "Instructies:\n"

  const SplitStep :=
      "1. Deel de tekst op " + "in logische stukjes " + "(zinsdelen).\n"

  const MarkStep :=
      "2. Geef per stukje a" + "an of het fout is en" + " welk type fout.\n"

  const NoCorrectionStep :=
      "3. Geef GEEN correct" + "ie in de tekst, alle" + "en de markering.\n"

  const HintStep :=
      "4. 'explanation' is " + "een hint in het Nede" + "rlands waarom het fo"
    + "ut is (zonder het vo" + "or te zeggen).\n"

  const ContextHeading :=
      "Vacature Context:\n"

  // The answer format and its JSON example.

  const AnswerHeading :=
      "Geef het antwoord in" + " JSON formaat:\n"

  const CleanExample :=
      "    { \"text\": \"Estim" + "ados señores\", \"isEr" + "ror\": false, \"type\":"
    + " \"none\" },\n"

  const FlaggedExample :=
      "    { \"text\": \"yo bu" + "scar trabajo\", \"isEr" + "ror\": true, \"type\": "
    + "\"grammar\", \"explanat" + "ion\": \"Vervoeg het w" + "erkwoord 'buscar' en"
    + " gebruik de juiste v" + "orm.\" }\n"

  const FeedbackExample :=
      "  \"generalFeedback\":" + " \"Een korte algemene" + " opmerking over de b"
    + "rief in het Nederlan" + "ds.\"\n"

  /** The lines before the placeholder, blank ones included. */
  const HeadLines: seq<string> := [
    "\n", Role, Task,
    "\n", CategoriesLead, SpellingRule, MissingRule, GrammarRule, TenseRule, OrderRule, ChoiceRule,
    "\n", StepsLead, SplitStep, MarkStep, NoCorrectionStep, HintStep,
    "\n", ContextHeading]

  /** The lines after it: the rest of the placeholder's own line, a blank
      line, the answer heading and the JSON example. */
  const TailLines: seq<string> := [
    "\n", "\n", AnswerHeading,
    "{\n", "  \"segments\": [\n", CleanExample, FlaggedExample, "  ],\n", FeedbackExample, "}\n"]

  /** Lines concatenated in order. */
  function Unlines(ls: seq<string>): string {
    if |ls| == 0 then "" else Unlines(ls[..|ls| - 1]) + ls[|ls| - 1]
  }

  /** The template up to the placeholder. */
  const PromptHead := Unlines(HeadLines)

  /** The template after the placeholder. */
  const PromptTail := Unlines(TailLines)

  const AnalysisPrompt := PromptHead + JobContextPlaceholder + PromptTail

  // Where braces occur. Each line is checked on its own; the checks are
  // then combined by induction over the lines.

  lemma RoleHasNoBrace() ensures '{' !in Role {}
  lemma TaskHasNoBrace() ensures '{' !in Task {}
  lemma CategoriesLeadHasNoBrace() ensures '{' !in CategoriesLead {}
  lemma SpellingRuleHasNoBrace() ensures '{' !in SpellingRule {}
  lemma MissingRuleHasNoBrace() ensures '{' !in MissingRule {}
  lemma GrammarRuleHasNoBrace() ensures '{' !in GrammarRule {}
  lemma TenseRuleHasNoBrace() ensures '{' !in TenseRule {}
  lemma OrderRuleHasNoBrace() ensures '{' !in OrderRule {}
  lemma ChoiceRuleHasNoBrace() ensures '{' !in ChoiceRule {}
  lemma StepsLeadHasNoBrace() ensures '{' !in StepsLead {}
  lemma SplitStepHasNoBrace() ensures '{' !in SplitStep {}
  lemma MarkStepHasNoBrace() ensures '{' !in MarkStep {}
  lemma NoCorrectionStepHasNoBrace() ensures '{' !in NoCorrectionStep {}
  lemma HintStepHasNoBrace() ensures '{' !in HintStep {}
  lemma ContextHeadingHasNoBrace() ensures '{' !in ContextHeading {}
  lemma AnswerHeadingHasNoBrace() ensures '{' !in AnswerHeading {}
  lemma CleanExampleHasNoJ() ensures 'J' !in CleanExample {}
  lemma FlaggedExampleHasNoJ() ensures 'J' !in FlaggedExample {}
  lemma FeedbackExampleHasNoBrace() ensures '{' !in FeedbackExample {}

  lemma {:induction false} UnlinesLacks(ls: seq<string>, c: char)
    requires forall k :: 0 <= k < |ls| ==> c !in ls[k]
    ensures c !in Unlines(ls)
  {
    if |ls| > 0 {
      UnlinesLacks(ls[..|ls| - 1], c);
    }
  }

  /** Lines that are not empty, each free of `a` or of `b`, and where no line
      holding an `a` is followed by one holding a `b`, never put `b` right
      after `a`. */
  lemma {:induction false} UnlinesNoPair(ls: seq<string>, a: char, b: char)
    requires forall k :: 0 <= k < |ls| ==> |ls[k]| > 0 && (a !in ls[k] || b !in ls[k])
    requires forall k :: 0 < k < |ls| ==> a !in ls[k - 1] || b !in ls[k]
    ensures |ls| > 0 ==> |Unlines(ls)| > 0 && Unlines(ls)[|Unlines(ls)| - 1] == ls[|ls| - 1][|ls[|ls| - 1]| - 1]
    ensures NoPair(Unlines(ls), a, b)
  {
    if |ls| > 0 {
      var n := |ls|;
      var init := ls[..n - 1];
      UnlinesNoPair(init, a, b);
      var x, y := Unlines(init), ls[n - 1];
      NoPairOfLacking(y, a, b);
      if n > 1 {
        var last := ls[n - 2];
        assert x[|x| - 1] == last[|last| - 1] && last[|last| - 1] in last;
        assert y[0] in y;
      }
      NoPairConcat(x, y, a, b);
    }
  }

  /** No brace precedes the placeholder. */
  lemma HeadHasNoBrace()
    ensures '{' !in PromptHead
  {
    RoleHasNoBrace(); TaskHasNoBrace();
    CategoriesLeadHasNoBrace(); SpellingRuleHasNoBrace(); MissingRuleHasNoBrace(); GrammarRuleHasNoBrace();
    TenseRuleHasNoBrace(); OrderRuleHasNoBrace(); ChoiceRuleHasNoBrace();
    StepsLeadHasNoBrace(); SplitStepHasNoBrace(); MarkStepHasNoBrace(); NoCorrectionStepHasNoBrace(); HintStepHasNoBrace();
    ContextHeadingHasNoBrace();
    assert forall k :: 0 <= k < |HeadLines| ==> '{' !in HeadLines[k];
    UnlinesLacks(HeadLines, '{');
  }

  /** The braces after the placeholder all belong to the JSON example, and
      none of them is followed by the placeholder's `J`. */
  lemma TailHasNoPlaceholderStart()
    ensures NoPair(PromptTail, '{', 'J')
  {
    AnswerHeadingHasNoBrace();
    CleanExampleHasNoJ(); FlaggedExampleHasNoJ(); FeedbackExampleHasNoBrace();
    assert forall k :: 0 <= k < |TailLines| ==> |TailLines[k]| > 0 && ('{' !in TailLines[k] || 'J' !in TailLines[k]);
    assert forall k :: 0 < k < |TailLines| ==> '{' !in TailLines[k - 1] || 'J' !in TailLines[k];
    UnlinesNoPair(TailLines, '{', 'J');
  }

  /** The template holds the placeholder exactly once, so replacing its first
      occurrence replaces all of them. */
  lemma PlaceholderOccursOnce()
    ensures forall k: nat :: OccursAt(AnalysisPrompt, JobContextPlaceholder, k) <==> k == |PromptHead|
  {
    HeadHasNoBrace();
    TailHasNoPlaceholderStart();
    UniqueOccurrence(PromptHead, JobContextPlaceholder, PromptTail);
  }

  /** Hence the search for the placeholder finds it right after the head,
      and the template is head, placeholder, tail. */
  lemma PlaceholderIndex()
    ensures IndexOf(AnalysisPrompt, JobContextPlaceholder) == Some(|PromptHead|)
    ensures AnalysisPrompt[..|PromptHead|] == PromptHead
    ensures AnalysisPrompt[|PromptHead| + |JobContextPlaceholder|..] == PromptTail
  {
    PlaceholderOccursOnce();
    assert OccursAt(AnalysisPrompt, JobContextPlaceholder, |PromptHead|);
  }
}

=== FILE: review_board.dfy ===
/** The annotated-letter view: how each segment of a review is rendered,
    which segments answer clicks, which one is highlighted, and the colour
    legend shown beside it. */
module ReviewBoard {

  import opened Optional
  import opened Types
  import opened Text
  import opened Constants
  import Gemini

  /** What the board shows for one segment: a clean segment is its text and
      a trailing space with no click handler; a flagged segment is a marked
      span that hands the segment back when clicked. */
  datatype Item =
    | Plain(text: string)
    | Marked(segment: TextSegment, color: string, highlighted: bool, tooltip: string)

  /** `ERROR_COLORS[type] || ERROR_COLORS['none']`. */
  function ColorFor(t: ErrorType): string {
    if |ErrorColor(t)| > 0 then ErrorColor(t) else ErrorColor(NoError)
  }

  /** The fallback to the "no error" colour is never taken: every category
      has a non-empty class string. */
  lemma ColorForIsTableEntry(t: ErrorType)
    ensures ColorFor(t) == ErrorColor(t)
  {
    ColorFirstTokenIsBackground(t);
    assert |ErrorClasses(t)[0]| > 0 by {
      if t == NoError { assert ErrorClasses(t)[0] == "text-gray-900"; }
    }
  }

  lemma ColorsAreTableEntries()
    ensures forall t :: ColorFor(t) == ErrorColor(t)
  {
    forall t: ErrorType
      ensures ColorFor(t) == ErrorColor(t)
    {
      ColorForIsTableEntry(t);
    }
  }

  predicate IsBackgroundClass(c: string) {
    |c| >= 3 && c[..3] == "bg-"
  }

  lemma FirstClassShape(t: ErrorType)
    ensures |ErrorClasses(t)| > 0
    ensures forall i :: 0 <= i < |ErrorClasses(t)[0]| ==> ErrorClasses(t)[0][i] != ' '
    ensures IsBackgroundClass(ErrorClasses(t)[0]) <==> t != NoError
  {
    var c := ErrorClasses(t)[0];
    match t {
      case Spelling => assert c == "bg-red-100";
      case Missing => assert c == "bg-blue-100";
      case Grammar => assert c == "bg-yellow-100";
      case Tense => assert c == "bg-green-100";
      case Order => assert c == "bg-amber-100";
      case Choice => assert c == "bg-teal-100";
      case NoError => assert c == "text-gray-900"; assert c[0] != 'b';
    }
  }

  /** The legend's dot colour, the first token of a category's class string,
      is a background class for every category but "no error". */
  lemma ColorFirstTokenIsBackground(t: ErrorType)
    ensures FirstToken(ErrorColor(t)) == ErrorClasses(t)[0]
    ensures IsBackgroundClass(FirstToken(ErrorColor(t))) <==> t != NoError
  {
    FirstClassShape(t);
    FirstTokenOfJoin(ErrorClasses(t));
  }

  function RenderSegment(segment: TextSegment, selectedId: Option<string>): Item {
    if !segment.isError then Plain(segment.text + " ")
    else Marked(segment, ColorFor(segment.kind), selectedId == Some(segment.id), ErrorLabel(segment.kind))
  }

  /** The board: one item per segment, in order. */
  function Render(segments: seq<TextSegment>, selectedId: Option<string>): (items: seq<Item>)
    ensures |items| == |segments|
    ensures forall i :: 0 <= i < |items| ==> (items[i].Plain? <==> !segments[i].isError)
    ensures forall i :: 0 <= i < |items| && items[i].Plain? ==> items[i].text == segments[i].text + " "
    ensures forall i :: 0 <= i < |items| && items[i].Marked? ==>
              && items[i].segment == segments[i]
              && (items[i].highlighted <==> selectedId == Some(segments[i].id))
              && items[i].color == ErrorColor(segments[i].kind)
              && items[i].tooltip == ErrorLabel(segments[i].kind)
  {
    ColorsAreTableEntries();
    seq(|segments|, i requires 0 <= i < |segments| => RenderSegment(segments[i], selectedId))
  }

  /** What clicking the `k`-th item hands to the click handler, if anything. */
  function Click(items: seq<Item>, k: nat): Option<TextSegment> {
    if k < |items| && items[k].Marked? then Some(items[k].segment) else None
  }

  /** A click yields a segment exactly when it lands on a flagged segment,
      and then it yields that very segment. */
  lemma ClickYieldsFlaggedSegment(segments: seq<TextSegment>, selectedId: Option<string>, k: nat)
    ensures var c := Click(Render(segments, selectedId), k);
            (c.Some? <==> k < |segments| && segments[k].isError)
            && (c.Some? ==> c.value == segments[k])
  {
  }

  predicate Highlighted(items: seq<Item>, i: nat) {
    i < |items| && items[i].Marked? && items[i].highlighted
  }

  /** A segment is highlighted iff it is flagged and carries the selected id. */
  lemma HighlightedIff(segments: seq<TextSegment>, selectedId: Option<string>, i: nat)
    requires i < |segments|
    ensures Highlighted(Render(segments, selectedId), i)
            <==> segments[i].isError && selectedId == Some(segments[i].id)
  {
  }

  /** With pairwise distinct ids at most one segment is highlighted. */
  lemma AtMostOneHighlighted(segments: seq<TextSegment>, selectedId: Option<string>, i: nat, j: nat)
    requires Distinct(SegmentIds(segments))
    requires Highlighted(Render(segments, selectedId), i) && Highlighted(Render(segments, selectedId), j)
    ensures i == j
  {
    var ids := SegmentIds(segments);
    assert ids[i] == segments[i].id && ids[j] == segments[j].id;
  }

  /** The degraded single-segment review offers nothing to click. */
  lemma FallbackHasNothingClickable(text: string, selectedId: Option<string>, k: nat)
    ensures Click(Render(Gemini.FallbackAnalysis(text).segments, selectedId), k).None?
  {
  }
}

=== FILE: text.dfy ===
/** String operations the application borrows from JavaScript: white-space
    trimming and collapsing, joining, decimal rendering of numbers, prefixes,
    and replacement of the first occurrence of a pattern. Strings are
    sequences of Unicode scalar values. */
module Text {

  import opened Optional

  /** The characters that JavaScript's `\s` class and `String.prototype.trim`
      treat as white space (WhiteSpace plus LineTerminator). */
  predicate IsWs(c: char) {
    || c == '\t' || c == '\n' || c == '\U{B}' || c == '\U{C}' || c == '\r'
    || c == ' ' || c == '\U{A0}' || c == '\U{1680}'
    || ('\U{2000}' <= c <= '\U{200A}')
    || c == '\U{2028}' || c == '\U{2029}' || c == '\U{202F}' || c == '\U{205F}'
    || c == '\U{3000}' || c == '\U{FEFF}'
  }

  predicate AllWs(s: string) {
    forall i :: 0 <= i < |s| ==> IsWs(s[i])
  }

  /** No white space at either end. */
  predicate Unpadded(t: string) {
    |t| == 0 || (!IsWs(t[0]) && !IsWs(t[|t| - 1]))
  }

  /** Every white-space character is a plain space and no two are adjacent. */
  predicate Collapsed(t: string) {
    && (forall i :: 0 <= i < |t| && IsWs(t[i]) ==> t[i] == ' ')
    && (forall i :: 0 <= i < |t| - 1 ==> !IsWs(t[i]) || !IsWs(t[i + 1]))
  }

  /** The shape `s.replace(/\s+/g, ' ').trim()` produces. */
  predicate Normalized(t: string) {
    Collapsed(t) && Unpadded(t)
  }

  /** The non-white-space characters of `s`, in order. */
  function NonWs(s: string): string {
    if |s| == 0 then ""
    else if IsWs(s[0]) then NonWs(s[1..])
    else [s[0]] + NonWs(s[1..])
  }

  /** `String.prototype.trimStart`. */
  function TrimStart(s: string): (r: string)
    ensures |r| <= |s| && r == s[|s| - |r|..]
    ensures AllWs(s[..|s| - |r|])
    ensures |r| == 0 || !IsWs(r[0])
    ensures |s| > 0 && IsWs(s[0]) ==> |r| < |s|
  {
    if |s| > 0 && IsWs(s[0]) then
      var r := TrimStart(s[1..]);
      assert s[..|s| - |r|] == [s[0]] + s[1..][..|s| - 1 - |r|];
      assert s[1..][|s| - 1 - |r|..] == s[|s| - |r|..];
      r
    else
      assert s[..0] == [];
      s
  }

  /** `String.prototype.trimEnd`. */
  function TrimEnd(s: string): (r: string)
    ensures |r| <= |s| && r == s[..|r|]
    ensures AllWs(s[|r|..])
    ensures |r| == 0 || !IsWs(r[|r| - 1])
  {
    if |s| > 0 && IsWs(s[|s| - 1]) then
      var r := TrimEnd(s[..|s| - 1]);
      assert s[|r|..] == s[..|s| - 1][|r|..] + [s[|s| - 1]];
      assert s[..|s| - 1][..|r|] == s[..|r|];
      r
    else
      assert s[|s|..] == [];
      s
  }

  /** How many white-space characters `trimStart` removes. */
  function LeadingWs(s: string): nat {
    |s| - |TrimStart(s)|
  }

  /** `String.prototype.trim`: the middle slice left after cutting white space
      off both ends; everything cut off is white space. */
  function Trim(s: string): (r: string)
    ensures Unpadded(r)
    ensures LeadingWs(s) + |r| <= |s| && r == s[LeadingWs(s)..LeadingWs(s) + |r|]
    ensures AllWs(s[..LeadingWs(s)]) && AllWs(s[LeadingWs(s) + |r|..])
  {
    var a := TrimStart(s);
    var r := TrimEnd(a);
    var k := LeadingWs(s);
    assert a == s[k..];
    SliceOfSuffix(s, k, |r|);
    assert |r| > 0 ==> r[0] == a[0];
    r
  }

  lemma SliceOfSuffix(s: string, k: nat, n: nat)
    requires k + n <= |s|
    ensures s[k..][..n] == s[k..k + n] && s[k..][n..] == s[k + n..]
  {
  }

  /** The guard `!text.trim()` of the analysis handler: the trimmed text is
      empty exactly when the text is all white space. */
  lemma TrimEmptyIff(s: string)
    ensures |Trim(s)| == 0 <==> AllWs(s)
  {
    var a := TrimStart(s);
    if |Trim(s)| == 0 {
      assert a[0..] == a;
      assert |a| == 0;
      assert s[..|s|] == s;
    } else {
      var r := Trim(s);
      assert r[0] == s[LeadingWs(s)];
    }
  }

  /** `s.replace(/\s+/g, ' ')`: every maximal run of white space becomes one
      plain space. */
  function Collapse(s: string): (r: string)
    ensures Collapsed(r)
    ensures |r| == 0 <==> |s| == 0
    ensures |s| > 0 ==> (IsWs(r[0]) <==> IsWs(s[0]))
    decreases |s|
  {
    if |s| == 0 then ""
    else if IsWs(s[0]) then
      var rest := TrimStart(s);
      ConsCollapsed(' ', Collapse(rest));
      [' '] + Collapse(rest)
    else
      ConsCollapsed(s[0], Collapse(s[1..]));
      [s[0]] + Collapse(s[1..])
  }

  /** Putting one character in front of a collapsed text keeps it collapsed
      unless that makes two white-space characters adjacent. */
  lemma ConsCollapsed(h: char, c: string)
    requires Collapsed(c)
    requires IsWs(h) ==> h == ' ' && (|c| == 0 || !IsWs(c[0]))
    ensures Collapsed([h] + c)
  {
    var r := [h] + c;
    assert forall i :: 0 < i < |r| ==> r[i] == c[i - 1];
  }

  /** The draft reconstruction `text.replace(/\s+/g, ' ').trim()`. */
  function Normalize(s: string): (r: string)
    ensures Normalized(r)
  {
    var c := Collapse(s);
    var r := Trim(c);
    CollapsedSlice(c, LeadingWs(c), |r|);
    r
  }

  lemma CollapsedSlice(t: string, k: nat, n: nat)
    requires Collapsed(t)
    requires k + n <= |t|
    ensures Collapsed(t[k..k + n])
  {
    var r := t[k..k + n];
    forall i | 0 <= i < |r| - 1 ensures !IsWs(r[i]) || !IsWs(r[i + 1]) {
      assert r[i] == t[k + i] && r[i + 1] == t[k + i + 1];
    }
    forall i | 0 <= i < |r| && IsWs(r[i]) ensures r[i] == ' ' {
      assert r[i] == t[k + i];
    }
  }

  lemma NonWsConcat(a: string, b: string)
    ensures NonWs(a + b) == NonWs(a) + NonWs(b)
  {
    if |a| > 0 {
      assert (a + b)[1..] == a[1..] + b;
      NonWsConcat(a[1..], b);
    } else {
      assert a + b == b;
    }
  }

  lemma NonWsOfBlank(s: string)
    requires AllWs(s)
    ensures NonWs(s) == ""
  {
    if |s| > 0 {
      NonWsOfBlank(s[1..]);
    }
  }

  lemma {:induction false} CollapseKeepsContent(s: string)
    ensures NonWs(Collapse(s)) == NonWs(s)
    decreases |s|
  {
    if |s| == 0 {
    } else if IsWs(s[0]) {
      var rest := TrimStart(s);
      var k := |s| - |rest|;
      assert s == s[..k] + rest;
      NonWsConcat(s[..k], rest);
      NonWsOfBlank(s[..k]);
      CollapseKeepsContent(rest);
      NonWsConcat([' '], Collapse(rest));
      assert NonWs([' ']) == "";
    } else {
      CollapseKeepsContent(s[1..]);
      NonWsConcat([s[0]], Collapse(s[1..]));
      assert NonWs([s[0]]) == [s[0]] by { assert [s[0]][1..] == []; }
    }
  }

  lemma NonWsAroundBlank(front: string, mid: string, back: string)
    requires AllWs(front) && AllWs(back)
    ensures NonWs(front + mid + back) == NonWs(mid)
  {
    NonWsConcat(front + mid, back);
    NonWsConcat(front, mid);
    NonWsOfBlank(front);
    NonWsOfBlank(back);
  }

  lemma SplitThree(s: string, k: nat, n: nat)
    requires k + n <= |s|
    ensures s[..k] + s[k..k + n] + s[k + n..] == s
  {
  }

  lemma TrimKeepsContent(s: string)
    ensures NonWs(Trim(s)) == NonWs(s)
  {
    var r := Trim(s);
    var k := LeadingWs(s);
    var front, back := s[..k], s[k + |r|..];
    SplitThree(s, k, |r|);
    assert front + r + back == s;
    NonWsAroundBlank(front, r, back);
  }

  /** Normalising never loses or reorders a visible character. */
  lemma NormalizeKeepsContent(s: string)
    ensures NonWs(Normalize(s)) == NonWs(s)
  {
    CollapseKeepsContent(s);
    TrimKeepsContent(Collapse(s));
  }

  lemma {:induction false} CollapseFixesCollapsed(t: string)
    requires Collapsed(t)
    ensures Collapse(t) == t
    decreases |t|
  {
    if |t| == 0 {
    } else if IsWs(t[0]) {
      assert t[0] == ' ';
      assert TrimStart(t) == t[1..] by {
        if |t| > 1 { assert !IsWs(t[1]); }
      }
      CollapsedSlice(t, 1, |t| - 1);
      CollapseFixesCollapsed(t[1..]);
      assert t == [' '] + t[1..];
    } else {
      CollapsedSlice(t, 1, |t| - 1);
      CollapseFixesCollapsed(t[1..]);
      assert t == [t[0]] + t[1..];
    }
  }

  /** A normalised text is a fixed point of normalisation. */
  lemma NormalizedIsFixpoint(t: string)
    requires Normalized(t)
    ensures Normalize(t) == t
  {
    CollapseFixesCollapsed(t);
  }

  /** Normalising twice is normalising once. */
  lemma NormalizeIdempotent(s: string)
    ensures Normalize(Normalize(s)) == Normalize(s)
  {
    NormalizedIsFixpoint(Normalize(s));
  }

  // ---------------------------------------------------------------------
  // Collapsing and normalising, against an independent reference: the words

  /** The length of the white-space-free prefix of `s`. */
  function WordLength(s: string): (n: nat)
    ensures n <= |s|
    ensures forall i :: 0 <= i < n ==> !IsWs(s[i])
    ensures n == |s| || IsWs(s[n])
  {
    if |s| == 0 || IsWs(s[0]) then 0 else 1 + WordLength(s[1..])
  }

  /** The maximal runs of non-white-space characters of `s`, in order. */
  function Words(s: string): (ws: seq<string>)
    ensures forall k :: 0 <= k < |ws| ==> |ws[k]| > 0
    ensures forall k, i :: 0 <= k < |ws| && 0 <= i < |ws[k]| ==> !IsWs(ws[k][i])
    decreases |s|
  {
    if |s| == 0 then []
    else if IsWs(s[0]) then Words(s[1..])
    else
      var n := WordLength(s);
      [s[..n]] + Words(s[n..])
  }

  /** Trimming the front of a text that has something visible distributes
      over what follows. */
  lemma {:induction false} TrimStartConcat(x: string, y: string)
    requires |TrimStart(x)| > 0
    ensures TrimStart(x + y) == TrimStart(x) + y
    decreases |x|
  {
    if IsWs(x[0]) {
      assert (x + y)[1..] == x[1..] + y;
      TrimStartConcat(x[1..], y);
    }
  }

  /** White space in front of a visible character is skipped entirely. */
  lemma {:induction false} TrimStartOfBlank(x: string, y: string)
    requires AllWs(x)
    requires |y| == 0 || !IsWs(y[0])
    ensures TrimStart(x + y) == y
    decreases |x|
  {
    if |x| > 0 {
      assert (x + y)[1..] == x[1..] + y;
      TrimStartOfBlank(x[1..], y);
    } else {
      assert x + y == y;
    }
  }

  lemma {:induction false} TrimEndConcat(x: string, y: string)
    requires |TrimEnd(y)| > 0
    ensures TrimEnd(x + y) == x + TrimEnd(y)
    decreases |y|
  {
    var s := x + y;
    if IsWs(y[|y| - 1]) {
      assert s[..|s| - 1] == x + y[..|y| - 1];
      TrimEndConcat(x, y[..|y| - 1]);
    }
  }

  /** A run of white space collapses to a single space. */
  lemma CollapseOfRun(w: string)
    requires |w| > 0 && AllWs(w)
    ensures Collapse(w) == " "
  {
    TrimStartOfBlank(w, "");
    assert w + "" == w;
  }

  /** Text without white space is left alone. */
  lemma CollapseOfWord(w: string)
    requires forall i :: 0 <= i < |w| ==> !IsWs(w[i])
    ensures Collapse(w) == w
  {
    CollapseFixesCollapsed(w);
  }

  /** Collapsing works run by run: cutting a text where white space meets a
      visible character, or at either end, cuts its collapse at the same
      place. With `CollapseOfRun` and `CollapseOfWord` this says that every
      maximal white-space run becomes one space in the same position. */
  lemma {:induction false} CollapseConcat(x: string, y: string)
    requires |x| == 0 || |y| == 0 || !IsWs(x[|x| - 1]) || !IsWs(y[0])
    ensures Collapse(x + y) == Collapse(x) + Collapse(y)
    decreases |x|
  {
    if |x| == 0 {
      assert x + y == y;
    } else if |y| == 0 {
      assert x + y == x;
    } else if IsWs(x[0]) {
      var t := TrimStart(x);
      if |t| > 0 {
        assert |t| < |x| && t[|t| - 1] == x[|x| - 1];
        CollapseConcat(t, y);
        CollapseConcatAfterRun(x, y);
      } else {
        assert AllWs(x) by { assert x[..|x|] == x; }
        TrimStartOfBlank(x, y);
        CollapseOfRun(x);
      }
    } else {
      CollapseConcat(x[1..], y);
      CollapseConcatAfterVisible(x, y);
    }
  }

  /** The step of `CollapseConcat` past a leading white-space run. */
  lemma CollapseConcatAfterRun(x: string, y: string)
    requires |x| > 0 && IsWs(x[0]) && |TrimStart(x)| > 0
    requires Collapse(TrimStart(x) + y) == Collapse(TrimStart(x)) + Collapse(y)
    ensures Collapse(x + y) == Collapse(x) + Collapse(y)
  {
    TrimStartConcat(x, y);
    CollapseOfSpaced(x);
    CollapseOfSpaced(x + y);
    Reassociate(" ", Collapse(TrimStart(x)), Collapse(y));
  }

  /** The step of `CollapseConcat` past a leading visible character. */
  lemma CollapseConcatAfterVisible(x: string, y: string)
    requires |x| > 0 && !IsWs(x[0])
    requires Collapse(x[1..] + y) == Collapse(x[1..]) + Collapse(y)
    ensures Collapse(x + y) == Collapse(x) + Collapse(y)
  {
    var h, u := x[0], x[1..];
    assert x == [h] + u;
    Reassociate([h], u, y);
    CollapseConsVisible(h, u + y);
    CollapseConsVisible(h, u);
    Reassociate([h], Collapse(u), Collapse(y));
  }

  /** A visible character stays in front of the collapse of what follows. */
  lemma CollapseConsVisible(h: char, r: string)
    requires !IsWs(h)
    ensures Collapse([h] + r) == [h] + Collapse(r)
  {
    assert ([h] + r)[1..] == r;
  }

  /** `Trim` ignores one leading white-space character. */
  lemma TrimDropsLeadingWs(h: char, c: string)
    requires IsWs(h)
    ensures Trim([h] + c) == Trim(c)
  {
    assert ([h] + c)[1..] == c;
  }

  /** A text that starts with a visible character keeps its front under `Trim`
      and is not trimmed away. */
  lemma TrimOfVisibleStart(c: string)
    requires |c| > 0 && !IsWs(c[0])
    ensures Trim(c) == TrimEnd(c) && |Trim(c)| > 0
  {
    assert c[..0] == [];
  }

  lemma NormalizeDropsLeadingWs(s: string)
    requires |s| > 0 && IsWs(s[0])
    ensures Normalize(s) == Normalize(s[1..])
  {
    var r := s[1..];
    if |r| > 0 && IsWs(r[0]) {
      assert Collapse(s) == Collapse(r);
    } else {
      assert TrimStart(s) == r;
      TrimDropsLeadingWs(' ', Collapse(r));
    }
  }

  /** A word followed by white space only normalises to the word. */
  lemma NormalizeWordThenBlank(w: string, rest: string)
    requires |w| > 0 && forall i :: 0 <= i < |w| ==> !IsWs(w[i])
    requires |rest| > 0 && AllWs(rest)
    ensures Normalize(w + rest) == w && Normalize(rest) == ""
  {
    CollapseWordThenRun(w, rest);
    TrimWordThenSpace(w);
    CollapseOfRun(rest);
    TrimDropsLeadingWs(' ', "");
  }

  /** A word then white space only collapses to the word and one space. */
  lemma CollapseWordThenRun(w: string, rest: string)
    requires forall i :: 0 <= i < |w| ==> !IsWs(w[i])
    requires |rest| > 0 && AllWs(rest)
    ensures Collapse(w + rest) == w + " "
  {
    CollapseConcat(w, rest);
    CollapseOfWord(w);
    CollapseOfRun(rest);
  }

  /** Trimming takes the one space off the end of a word. */
  lemma TrimWordThenSpace(w: string)
    requires |w| > 0 && forall i :: 0 <= i < |w| ==> !IsWs(w[i])
    ensures Trim(w + " ") == w
  {
    TrimOfVisibleStart(w + " ");
    assert (w + " ")[..|w|] == w;
  }

  /** White space and then visible text: normalising drops the white space
      in front and trims the collapsed remainder at its end only. */
  lemma NormalizeOfSpacedRest(rest: string)
    requires |rest| > 0 && IsWs(rest[0]) && |TrimStart(rest)| > 0
    ensures var c := Collapse(TrimStart(rest));
            |c| > 0 && !IsWs(c[0]) && Normalize(rest) == TrimEnd(c) && |TrimEnd(c)| > 0
  {
    var c := Collapse(TrimStart(rest));
    CollapseOfSpaced(rest);
    TrimDropsLeadingWs(' ', c);
    TrimOfVisibleStart(c);
  }

  /** A word, white space, and more visible text: one space separates the
      word from the normalised rest. */
  lemma NormalizeWordThenMore(w: string, rest: string)
    requires |w| > 0 && forall i :: 0 <= i < |w| ==> !IsWs(w[i])
    requires |rest| > 0 && IsWs(rest[0]) && |TrimStart(rest)| > 0
    ensures Normalize(w + rest) == w + " " + Normalize(rest) && |Normalize(rest)| > 0
  {
    var c := Collapse(TrimStart(rest));
    CollapseAfterWord(w, rest);
    assert Normalize(w + rest) == Trim((w + " ") + c);
    NormalizeOfSpacedRest(rest);
    TrimAfterWord(w, c);
  }

  /** A word then a white-space run: the word, one space, and the collapse of
      what follows the run. */
  lemma CollapseAfterWord(w: string, rest: string)
    requires forall i :: 0 <= i < |w| ==> !IsWs(w[i])
    requires |rest| > 0 && IsWs(rest[0])
    ensures Collapse(w + rest) == (w + " ") + Collapse(TrimStart(rest))
  {
    CollapseConcat(w, rest);
    CollapseOfWord(w);
    SpaceAfterWord(w, rest);
  }

  /** The space a white-space run collapses to, seen from the word before it. */
  lemma SpaceAfterWord(w: string, rest: string)
    requires |rest| > 0 && IsWs(rest[0])
    ensures w + Collapse(rest) == (w + " ") + Collapse(TrimStart(rest))
  {
    CollapseOfSpaced(rest);
    Reassociate(w, " ", Collapse(TrimStart(rest)));
  }

  /** Concatenation is associative; stated on its own so that proofs about
      collapsing can regroup without unfolding sequence equality. */
  lemma Reassociate(a: string, b: string, c: string)
    ensures a + (b + c) == (a + b) + c
  {
  }

  /** A text that starts with white space collapses to one space and the
      collapse of what follows the leading run. */
  lemma CollapseOfSpaced(s: string)
    requires |s| > 0 && IsWs(s[0])
    ensures Collapse(s) == " " + Collapse(TrimStart(s))
  {
  }

  /** Trimming a word, a space and more text that is visible somewhere keeps
      the front and trims only the end. */
  lemma TrimAfterWord(w: string, c: string)
    requires |w| > 0 && !IsWs(w[0])
    requires |TrimEnd(c)| > 0
    ensures Trim((w + " ") + c) == (w + " ") + TrimEnd(c)
  {
    TrimOfVisibleStart((w + " ") + c);
    TrimEndConcat(w + " ", c);
  }

  /** A word followed by the rest of the text: the word, then a single space
      when anything visible follows, then the normalised rest. */
  lemma NormalizeAfterWord(w: string, rest: string)
    requires |w| > 0 && forall i :: 0 <= i < |w| ==> !IsWs(w[i])
    requires |rest| == 0 || IsWs(rest[0])
    ensures Normalize(w + rest) == if |Normalize(rest)| == 0 then w else w + " " + Normalize(rest)
  {
    if |rest| == 0 {
      assert w + rest == w;
      CollapseOfWord(w);
      TrimOfVisibleStart(w);
    } else if |TrimStart(rest)| == 0 {
      assert AllWs(rest) by { assert rest[..|rest|] == rest; }
      NormalizeWordThenBlank(w, rest);
    } else {
      NormalizeWordThenMore(w, rest);
    }
  }

  /** Normalising puts single spaces between the words of the text and
      nothing else around them. */
  lemma {:induction false} NormalizeIsJoinedWords(s: string)
    ensures Normalize(s) == Join(" ", Words(s))
    decreases |s|
  {
    if |s| == 0 {
    } else if IsWs(s[0]) {
      NormalizeDropsLeadingWs(s);
      NormalizeIsJoinedWords(s[1..]);
    } else {
      var n := WordLength(s);
      var w, rest := s[..n], s[n..];
      assert s == w + rest;
      NormalizeAfterWord(w, rest);
      NormalizeIsJoinedWords(rest);
      assert Words(s) == [w] + Words(rest);
      JoinAfterWord(w, Words(rest));
    }
  }

  /** Joining a word in front of more words, or of none. */
  lemma JoinAfterWord(w: string, ws: seq<string>)
    requires |ws| == 0 || |ws[0]| > 0
    ensures |Join(" ", ws)| == 0 <==> |ws| == 0
    ensures Join(" ", [w] + ws) == if |ws| == 0 then w else w + " " + Join(" ", ws)
  {
    assert ([w] + ws)[1..] == ws;
  }

  /** `Array.prototype.join(sep)`. */
  function Join(sep: string, xs: seq<string>): (r: string)
    ensures |xs| == 0 ==> r == ""
    ensures |xs| > 0 ==> |xs[0]| <= |r| && r[..|xs[0]|] == xs[0]
  {
    if |xs| == 0 then ""
    else if |xs| == 1 then xs[0]
    else xs[0] + sep + Join(sep, xs[1..])
  }

  /** Joining grows at the end the same way: one more element is added
      after one more separator. */
  lemma {:induction false} JoinSnoc(sep: string, xs: seq<string>, y: string)
    requires |xs| > 0
    ensures Join(sep, xs + [y]) == Join(sep, xs) + sep + y
    decreases |xs|
  {
    var ys := xs + [y];
    if |xs| == 1 {
      assert ys[1..] == [y];
    } else {
      assert ys[1..] == xs[1..] + [y];
      JoinSnoc(sep, xs[1..], y);
      var j := Join(sep, xs[1..]);
      calc {
        Join(sep, ys);
        xs[0] + sep + (j + sep + y);
        { Reassociate(xs[0] + sep, j + sep, y); Reassociate(xs[0] + sep, j, sep); }
        xs[0] + sep + j + sep + y;
      }
    }
  }

  /** Space-joining non-empty normalised pieces yields a normalised text, so
      normalising it changes nothing. */
  lemma {:induction false} JoinNormalizedPieces(xs: seq<string>)
    requires forall i :: 0 <= i < |xs| ==> |xs[i]| > 0 && Normalized(xs[i])
    ensures Normalized(Join(" ", xs))
    ensures |xs| > 0 ==> |Join(" ", xs)| > 0
  {
    if |xs| > 1 {
      JoinNormalizedPieces(xs[1..]);
      var a := xs[0];
      var b := Join(" ", xs[1..]);
      var t := a + " " + b;
      assert Normalized(a);
      assert t[|a|] == ' ';
      forall i | 0 <= i < |t| && IsWs(t[i]) ensures t[i] == ' ' {
        if i < |a| { assert t[i] == a[i]; }
        else if i > |a| { assert t[i] == b[i - |a| - 1]; }
      }
      forall i | 0 <= i < |t| - 1 ensures !IsWs(t[i]) || !IsWs(t[i + 1]) {
        if i < |a| - 1 { assert t[i] == a[i] && t[i + 1] == a[i + 1]; }
        else if i == |a| - 1 { assert t[i] == a[|a| - 1]; }
        else if i == |a| { assert t[i + 1] == b[0]; }
        else { assert t[i] == b[i - |a| - 1] && t[i + 1] == b[i - |a|]; }
      }
      assert t[0] == a[0] && t[|t| - 1] == b[|b| - 1];
    }
  }

  // ---------------------------------------------------------------------
  // Decimal rendering of numbers, as template literals print them

  predicate IsDigit(c: char) {
    '0' <= c <= '9'
  }

  predicate AllDigits(s: string) {
    forall i :: 0 <= i < |s| ==> IsDigit(s[i])
  }

  function DigitChar(d: nat): char
    requires d < 10
  {
    ['0', '1', '2', '3', '4', '5', '6', '7', '8', '9'][d]
  }

  /** The value of a string of decimal digits. */
  function DigitsValue(s: string): nat
    requires AllDigits(s)
  {
    if |s| == 0 then 0
    else DigitsValue(s[..|s| - 1]) * 10 + (s[|s| - 1] as int - '0' as int)
  }

  /** The decimal rendering of `n`, without sign or leading zeros. */
  function NatToString(n: nat): (r: string)
    ensures |r| > 0 && AllDigits(r)
    ensures n >= 10 ==> |r| >= 2
    ensures |r| > 1 ==> r[0] != '0'
  {
    if n < 10 then [DigitChar(n)]
    else NatToString(n / 10) + [DigitChar(n % 10)]
  }

  /** Reading back a rendered number gives the number. */
  lemma {:induction false} NatToStringRoundTrip(n: nat)
    ensures DigitsValue(NatToString(n)) == n
  {
    var r := NatToString(n);
    if n >= 10 {
      NatToStringRoundTrip(n / 10);
      assert r[..|r| - 1] == NatToString(n / 10);
    } else {
      assert r[..0] == [];
    }
  }

  lemma NatToStringInjective(m: nat, n: nat)
    requires NatToString(m) == NatToString(n)
    ensures m == n
  {
    NatToStringRoundTrip(m);
    NatToStringRoundTrip(n);
  }

  // ---------------------------------------------------------------------
  // Prefixes and pattern search

  /** `s.substring(0, n)` for a non-negative `n`. */
  function Prefix(s: string, n: nat): (r: string)
    ensures |r| <= n && |r| <= |s|
    ensures r == s[..|r|]
    ensures |r| == n || |r| == |s|
  {
    if |s| <= n then s else s[..n]
  }

  predicate OccursAt(s: string, pat: string, k: nat) {
    k + |pat| <= |s| && s[k..k + |pat|] == pat
  }

  /** `s.indexOf(pat, from)`: the first position at or after `from` where
      `pat` occurs. */
  function IndexOfFrom(s: string, pat: string, from: nat): (r: Option<nat>)
    ensures r.Some? ==> from <= r.value && OccursAt(s, pat, r.value)
    ensures r.Some? ==> forall j :: from <= j < r.value ==> !OccursAt(s, pat, j)
    ensures r.None? ==> forall j :: from <= j ==> !OccursAt(s, pat, j)
    decreases |s| - from
  {
    if from + |pat| > |s| then None
    else if s[from..from + |pat|] == pat then Some(from)
    else IndexOfFrom(s, pat, from + 1)
  }

  function IndexOf(s: string, pat: string): Option<nat> {
    IndexOfFrom(s, pat, 0)
  }

  /** `s.split(' ')[0]`: the text before the first space, or all of `s`. */
  function FirstToken(s: string): (r: string)
    ensures |r| <= |s| && r == s[..|r|]
    ensures forall i :: 0 <= i < |r| ==> r[i] != ' '
    ensures |r| == |s| || s[|r|] == ' '
  {
    match IndexOf(s, " ")
    case None =>
      assert forall i :: 0 <= i < |s| ==> s[i] != ' ' by {
        forall i | 0 <= i < |s| ensures s[i] != ' ' {
          assert !OccursAt(s, " ", i);
          assert s[i..i + 1] == [s[i]];
        }
      }
      s
    case Some(k) =>
      assert forall i :: 0 <= i < k ==> s[i] != ' ' by {
        forall i | 0 <= i < k ensures s[i] != ' ' {
          assert !OccursAt(s, " ", i);
          assert s[i..i + 1] == [s[i]];
        }
      }
      assert s[k..k + 1] == " ";
      s[..k]
  }

  /** A space-free prefix followed by a space or by nothing is the first token. */
  lemma FirstTokenOfSpaced(s: string, a: string)
    requires |a| <= |s| && s[..|a|] == a
    requires forall i :: 0 <= i < |a| ==> a[i] != ' '
    requires |a| == |s| || s[|a|] == ' '
    ensures FirstToken(s) == a
  {
  }

  /** The first space-separated token of a space-joined list is its first
      element, when that element holds no space. */
  lemma FirstTokenOfJoin(xs: seq<string>)
    requires |xs| > 0
    requires forall i :: 0 <= i < |xs[0]| ==> xs[0][i] != ' '
    ensures FirstToken(Join(" ", xs)) == xs[0]
  {
    var s := Join(" ", xs);
    if |xs| > 1 {
      var rest := Join(" ", xs[1..]);
      assert s == xs[0] + " " + rest;
      assert s[|xs[0]|] == ' ';
    }
    FirstTokenOfSpaced(s, xs[0]);
  }

  /** Replacing the first occurrence of `pat` by the literal text `repl`. */
  function ReplaceFirst(s: string, pat: string, repl: string): string {
    match IndexOf(s, pat)
    case None => s
    case Some(k) => s[..k] + repl + s[k + |pat|..]
  }

  /** No `a` is immediately followed by `b`. */
  predicate NoPair(s: string, a: char, b: char) {
    forall i :: 0 <= i < |s| - 1 ==> !(s[i] == a && s[i + 1] == b)
  }

  lemma NoPairOfLacking(s: string, a: char, b: char)
    requires a !in s || b !in s
    ensures NoPair(s, a, b)
  {
    forall i | 0 <= i < |s| - 1 ensures !(s[i] == a && s[i + 1] == b) {
      assert s[i] in s && s[i + 1] in s;
    }
  }

  lemma NoPairConcat(x: string, y: string, a: char, b: char)
    requires NoPair(x, a, b) && NoPair(y, a, b)
    requires |x| == 0 || |y| == 0 || !(x[|x| - 1] == a && y[0] == b)
    ensures NoPair(x + y, a, b)
  {
    var s := x + y;
    forall i | 0 <= i < |s| - 1 ensures !(s[i] == a && s[i + 1] == b) {
      if i < |x| - 1 {
        assert s[i] == x[i] && s[i + 1] == x[i + 1];
      } else if i >= |x| {
        assert s[i] == y[i - |x|] && s[i + 1] == y[i - |x| + 1];
      } else {
        assert s[i] == x[|x| - 1] && s[i + 1] == y[0];
      }
    }
  }

  /** A pattern whose first character occurs neither in `head` nor in the
      rest of the pattern, and whose first two characters never stand side by
      side in `tail`, occurs in `head + pat + tail` at exactly one place. */
  lemma UniqueOccurrence(head: string, pat: string, tail: string)
    requires |pat| >= 2
    requires pat[0] !in head && pat[0] !in pat[1..]
    requires NoPair(tail, pat[0], pat[1])
    ensures forall k: nat :: OccursAt(head + pat + tail, pat, k) <==> k == |head|
  {
    var s := head + pat + tail;
    assert s[|head|..|head| + |pat|] == pat;
    forall k: nat | k < |head| ensures !OccursAt(s, pat, k) {
      assert s[k] == head[k] && head[k] in head;
      assert k + |pat| <= |s| ==> s[k..k + |pat|][0] == s[k];
    }
    forall k: nat | |head| < k < |head| + |pat| ensures !OccursAt(s, pat, k) {
      assert s[k] == pat[1..][k - |head| - 1] && pat[1..][k - |head| - 1] in pat[1..];
      assert k + |pat| <= |s| ==> s[k..k + |pat|][0] == s[k];
    }
    forall k: nat | |head| + |pat| <= k ensures !OccursAt(s, pat, k) {
      var j := k - |head| - |pat|;
      if k + |pat| <= |s| {
        assert s[k] == tail[j] && s[k + 1] == tail[j + 1];
        assert s[k..k + |pat|][0] == s[k] && s[k..k + |pat|][1] == s[k + 1];
      }
    }
  }

  /** Under the same conditions the first-occurrence replacement substitutes
      the pattern itself and leaves no occurrence behind in the template. */
  lemma ReplaceUniqueOccurrence(head: string, pat: string, tail: string, repl: string)
    requires |pat| >= 2
    requires pat[0] !in head && pat[0] !in pat[1..]
    requires NoPair(tail, pat[0], pat[1])
    ensures ReplaceFirst(head + pat + tail, pat, repl) == head + repl + tail
  {
    var s := head + pat + tail;
    UniqueOccurrence(head, pat, tail);
    assert OccursAt(s, pat, |head|);
    var k := IndexOf(s, pat);
    assert k == Some(|head|);
    assert s[..|head|] == head && s[|head| + |pat|..] == tail;
  }

  // ---------------------------------------------------------------------
  // JavaScript's `String.prototype.replace` with a string pattern

  predicate NoDollar(s: string) {
    forall i :: 0 <= i < |s| ==> s[i] != '$'
  }

  lemma NoDollarConcat(a: string, b: string)
    ensures NoDollar(a + b) <==> NoDollar(a) && NoDollar(b)
  {
    if NoDollar(a) && NoDollar(b) {
      forall i | 0 <= i < |a + b| ensures (a + b)[i] != '$' {
        if i < |a| { assert (a + b)[i] == a[i]; } else { assert (a + b)[i] == b[i - |a|]; }
      }
    }
    if NoDollar(a + b) {
      forall i | 0 <= i < |a| ensures a[i] != '$' { assert (a + b)[i] == a[i]; }
      forall i | 0 <= i < |b| ensures b[i] != '$' { assert (a + b)[|a| + i] == b[i]; }
    }
  }

  /** With a `$`-free separator, a joined list has a `$` exactly when one of
      its elements does. */
  lemma {:induction false} NoDollarJoin(sep: string, xs: seq<string>)
    requires NoDollar(sep)
    ensures NoDollar(Join(sep, xs)) <==> forall i :: 0 <= i < |xs| ==> NoDollar(xs[i])
    decreases |xs|
  {
    if |xs| > 1 {
      NoDollarJoin(sep, xs[1..]);
      NoDollarConcat(xs[0], sep);
      NoDollarConcat(xs[0] + sep, Join(sep, xs[1..]));
      assert forall i :: 1 <= i < |xs| ==> xs[i] == xs[1..][i - 1];
    }
  }

  /** The replacement template of `String.prototype.replace` when the pattern
      is a plain string (so there are no capture groups): `$$` stands for `$`,
      `$&` for the matched text, `` $` `` for the text before the match, `$'`
      for the text after it; any other `$` is literal. */
  function ExpandTemplate(t: string, matched: string, before: string, after: string): (r: string)
    ensures NoDollar(t) ==> r == t
    decreases |t|
  {
    if |t| == 0 then ""
    else if t[0] == '$' && |t| >= 2 && t[1] == '$' then "$" + ExpandTemplate(t[2..], matched, before, after)
    else if t[0] == '$' && |t| >= 2 && t[1] == '&' then matched + ExpandTemplate(t[2..], matched, before, after)
    else if t[0] == '$' && |t| >= 2 && t[1] == '`' then before + ExpandTemplate(t[2..], matched, before, after)
    else if t[0] == '$' && |t| >= 2 && t[1] == '\'' then after + ExpandTemplate(t[2..], matched, before, after)
    else
      assert t == [t[0]] + t[1..];
      [t[0]] + ExpandTemplate(t[1..], matched, before, after)
  }

  /** `s.replace(pat, repl)` with string arguments, as JavaScript evaluates it:
      nothing changes without an occurrence; otherwise the text before and
      after the first occurrence is kept, and a `$`-free replacement goes in
      literally. */
  function ReplaceFirstJs(s: string, pat: string, repl: string): (r: string)
    ensures IndexOf(s, pat).None? ==> r == s
    ensures IndexOf(s, pat).Some? ==>
              var k := IndexOf(s, pat).value;
              var tail := s[k + |pat|..];
              && k + |tail| <= |r|
              && r[..k] == s[..k]
              && r[|r| - |tail|..] == tail
    ensures NoDollar(repl) ==> r == ReplaceFirst(s, pat, repl)
  {
    match IndexOf(s, pat)
    case None => s
    case Some(k) => s[..k] + ExpandTemplate(repl, pat, s[..k], s[k + |pat|..]) + s[k + |pat|..]
  }
}

=== FILE: types.dfy ===
/** The shared vocabulary of the letter trainer: generated job postings, the
    annotated segments of a reviewed letter, the review itself, the outcome
    of validating a correction, and the phrase-library entries. */
module Types {

  import opened Optional

  /** The closed taxonomy of error categories a segment may carry. */
  datatype ErrorType = Spelling | Missing | Grammar | Tense | Order | Choice | NoError

  /** One generated job posting. */
  datatype JobAd = JobAd(
    id: string,
    title: string,
    company: string,
    location: string,
    country: string,
    description: string,
    requirements: seq<string>,
    offer: seq<string>,
    contactName: string,
    contactEmail: string,
    contactPhone: string)

  /** One chunk of the student's letter, possibly flagged as an error. */
  datatype TextSegment = TextSegment(
    id: string,
    text: string,
    isError: bool,
    kind: ErrorType,
    explanation: Option<string>)

  /** One review pass: the segmented letter and an overall comment. */
  datatype AnalysisResponse = AnalysisResponse(
    segments: seq<TextSegment>,
    generalFeedback: string)

  /** The verdict on one proposed correction. */
  datatype CorrectionResult = CorrectionResult(
    isCorrect: bool,
    feedback: string,
    correctedText: Option<string>)

  /** One entry of the phrase library. */
  datatype LenguatecaItem = LenguatecaItem(
    category: string,
    dutch: string,
    spanish: string)

  /** The ids of a sequence of segments, in order. */
  function SegmentIds(segs: seq<TextSegment>): (ids: seq<string>)
    ensures |ids| == |segs|
    ensures forall i :: 0 <= i < |segs| ==> ids[i] == segs[i].id
  {
    seq(|segs|, i requires 0 <= i < |segs| => segs[i].id)
  }

  /** The texts of a sequence of segments, in order. */
  function SegmentTexts(segs: seq<TextSegment>): (texts: seq<string>)
    ensures |texts| == |segs|
    ensures forall i :: 0 <= i < |segs| ==> texts[i] == segs[i].text
  {
    seq(|segs|, i requires 0 <= i < |segs| => segs[i].text)
  }

  predicate Distinct<T(==)>(xs: seq<T>) {
    forall i, j :: 0 <= i < j < |xs| ==> xs[i] != xs[j]
  }
}
